=== FILE: README.md ===
# Sportswear storefront: a Dafny model of its client-side logic

The storefront is a React single-page shop with an admin back-office; rows
live in a hosted database that the pages call directly. What remains in the
pages themselves is small, sequential logic, and this project models it as
pure functions over immutable records and sequences:

- **Checkout** (`Checkout`): cart subtotal, flat shipping, 10% tax and total;
  the field rules of the order form; the submit path chosen by the payment
  method; the rule that disables the place-order button.
- **Admin panel** (`AdminLists`, `ProductImages`): dashboard statistics and the
  list updates applied after a successful database call (order status,
  category delete with product detachment, product delete, product and
  category save, the additional-image list), plus how the product form's
  images are written to the `product_images` table with a display order and
  split back into a main image and additional images.
- **Order details** (`OrderDetailsView`): recomputed subtotal against stored
  totals, the status timeline, the status colour, the local status update and
  the order-source label.
- **Product cards** (`SignedInLists`): the sign-in guard and add-to-cart, which
  the home, products, product-details and wishlist pages repeat, and the
  wishlist toggle of the first three; the details page's product selection and
  thumbnails (`ProductDetailsView`); the wishlist page with its own
  token-free remove (`WishlistView`).
- **Brands** (`Brands`): case-insensitive substring search that preserves order.
- **Sign-in** (`Login`): the demo decision between a token and an error.

Shared pieces: `Wrappers` (an `Option` for `null`/absent values), `Seqs`
(`filter`, a recursive sum and the left-to-right `reduce` that computes it,
subsequences), `JsText` (JavaScript's `\s`, `trim`, ASCII `toLowerCase`,
`includes`) and `Records` (the database rows). Money is `real`. The email
syntax check of the validation library is a parameter `isEmail`. The clock
read for the demo token is a parameter `now`. Whether the browser accepts the `localStorage` write is a parameter `storageWrites`. Navigation is an output value.

The checkout page prices a fixed demo cart held in the component and its two
payment procedures only wait and report success: no order rows are written
by any modelled file, so no order-writing sequence is modelled. The model
prices any cart.

## Model

| member | source | states |
|---|---|---|
| Seqs.Filter | src/components/Brands/Brands.jsx:77-79 | `filter` keeps exactly the elements passing the test, each as often as it occurs, in order: every element that passes occurs in the result as many times as in the input, none that fails occurs, and the result is a subsequence of the input |
| Seqs.Reduce | src/components/CheckOut/Checkout.jsx:49 | the left-to-right running total of `reduce` ends at the recursive sum of the amounts |
| Checkout.CartTotals | src/components/CheckOut/Checkout.jsx:49-52 | the subtotal is the sum of price×count over the cart, all four figures are 0 for an empty cart, shipping is 15 exactly when the subtotal is positive, tax is a tenth of the subtotal, total = subtotal + shipping + tax |
| Checkout.DemoCartTotals | src/components/CheckOut/Checkout.jsx:15-52 | the demo cart (129.99 × 1, 59.99 × 2) prices at 249.97 + 15 + 24.997 = 289.967 |
| Checkout.SubtotalOfJoin | src/components/CheckOut/Checkout.jsx:49 | the subtotal of two carts joined is the sum of their subtotals |
| Checkout.ShippingOnlyForPaidCarts | src/components/CheckOut/Checkout.jsx:49-50 | with non-negative prices and counts of at least one the subtotal is non-negative, and shipping is waived exactly when every line is free |
| Checkout.EntryRedirect | src/components/CheckOut/Checkout.jsx:43-45 | checkout redirects to /cart exactly when the cart is empty |
| Checkout.RedirectExactlyWhenNothingToPay | src/components/CheckOut/Checkout.jsx:43-52 | for carts of priced lines, checkout redirects exactly when all four totals would be zero, and every cart that stays pays the flat shipping |
| Checkout.FormValidIff | src/components/CheckOut/Checkout.jsx:54-73 | the form is valid iff details ≥ 10 chars, city ≥ 2, first and last name ≥ 2, phone non-empty and all of `[0-9+\-\s()]`, email non-empty and accepted by the email check |
| Checkout.EditIsLocal | src/components/CheckOut/Checkout.jsx:54-73 | changing one field changes whether that field fails and leaves every other field's error as it was |
| Checkout.InitialFormFailsEverywhere | src/components/CheckOut/Checkout.jsx:111-118 | the empty initial form fails all six rules |
| Checkout.Submit | src/components/CheckOut/Checkout.jsx:120-132 | a submission reaches a payment procedure iff the form is valid; the online one iff the method is exactly `online`, the cash one for any other value; the address passed is exactly the form's details, phone and city |
| Checkout.SubmitDisabled | src/components/CheckOut/Checkout.jsx:525 | the button is disabled exactly while loading or while the form is invalid; an enabled button always leads to a payment procedure |
| Checkout.RunPayment | src/components/CheckOut/Checkout.jsx:75-108 | both procedures leave loading set and navigate to /; the online path shows the payment message and the cash path the order-placed message, so the message tells which path ran |
| Checkout.NoSecondSubmit | src/components/CheckOut/Checkout.jsx:93-108 | after either procedure the button is disabled, so the form cannot be submitted twice |
| Checkout.PaymentMethodOnlyChangesCaption | src/components/CheckOut/Checkout.jsx:538-539 | the payment method never changes the totals; for `cash` and `online` the button caption names the procedure that runs |
| AdminLists.CalculateStats | src/components/Admin/Admin.jsx:217-227 | the four counts are the list lengths and the revenue is the sum of order totals with a missing total counted as 0 |
| AdminLists.RevenueOfJoin | src/components/Admin/Admin.jsx:218 | revenue adds over a split of the orders, and orders without a total add nothing |
| AdminLists.Loaded | src/components/Admin/Admin.jsx:104-109 | after the initial load the dashboard agrees with the lists |
| AdminLists.SetOrderStatus | src/components/Admin/Admin.jsx:617-619 | only the order with that id changes, and only in its status; every other order is untouched and the length is kept |
| AdminLists.SetOrderStatusTwice | src/components/Admin/Admin.jsx:617-619 | two status updates of the same id amount to the second one |
| AdminLists.UpdateOrderStatus | src/components/Admin/Admin.jsx:605-626 | the status update does not recompute the dashboard and need not: a dashboard that agreed with the lists still agrees |
| AdminLists.DetachCategory | src/components/Admin/Admin.jsx:537-539 | products that used the category lose category_id and the joined category; others are untouched; none refers to it afterwards |
| AdminLists.DeleteCategory | src/components/Admin/Admin.jsx:534-541 | the categories are the old ones without that id, in order; the products are the old ones with that category detached from exactly those that used it, every other product untouched; orders and users are kept; the dashboard is recomputed |
| AdminLists.DeleteCategoryTwice | src/components/Admin/Admin.jsx:534-541 | deleting the same category again changes nothing |
| AdminLists.DeleteProduct | src/components/Admin/Admin.jsx:449-450 | the product id is gone, every other product stays in order with as many occurrences as before, and totalProducts is the length of the filtered list |
| AdminLists.SaveInto | src/components/Admin/Admin.jsx:293-297 | an edit replaces the rows with the edited id in place and keeps the length and every other row; a new row is prepended (the same update serves categories at Admin.jsx:484-497) |
| AdminLists.AddThenDeleteProduct | src/components/Admin/Admin.jsx:296 | adding a product with a fresh id and deleting it again gives the list back |
| AdminLists.SaveProductAsWritten | src/components/Admin/Admin.jsx:293-297 | the product save as written updates the product list only: categories, orders, users and the dashboard statistics stay as they were |
| AdminLists.AddedProductLeavesStaleCount | src/components/Admin/Admin.jsx:293-301 | after adding a product to an empty panel the dashboard still reports 0 products |
| AdminLists.SaveProduct | src/components/Admin/Admin.jsx:290-297 | the product save with the dashboard recomputed keeps it in agreement with the lists, one more product after an add |
| AdminLists.SaveCategoryAsWritten | src/components/Admin/Admin.jsx:474-499 | the category save as written updates the category list only: products, orders, users and the dashboard statistics stay as they were |
| AdminLists.AddedCategoryLeavesStaleCount | src/components/Admin/Admin.jsx:484-498 | after adding a category to an empty panel the dashboard still reports 0 categories |
| AdminLists.SaveCategory | src/components/Admin/Admin.jsx:474-499 | the category save with the dashboard recomputed keeps it in agreement with the lists |
| AdminLists.AddAdditionalImage | src/components/Admin/Admin.jsx:573-581 | the trimmed URL is appended only when the entered text is not blank; a cancelled or blank prompt leaves the list unchanged; a list of trimmed non-empty URLs stays so |
| AdminLists.RemoveAdditionalImage | src/components/Admin/Admin.jsx:583-590 | `splice(i, 1)` drops exactly the element at i (counting from the end for negative i, nothing past the end) and keeps the rest in order |
| AdminLists.AddThenRemoveImage | src/components/Admin/Admin.jsx:573-590 | removing the image just added gives the list back |
| AdminLists.EditAdditionalImage | src/components/Admin/Admin.jsx:1176-1179 | the inline input replaces the image at its index with the typed value, untrimmed and possibly empty, and leaves every other image and the length as they were |
| AdminLists.RemoveUndoesEdit | src/components/Admin/Admin.jsx:583-590 | removing an edited image gives the same list as removing it unedited |
| JsText.Trim | src/components/Admin/Admin.jsx:575 | the trimmed text is empty iff the text is all whitespace, otherwise it starts and ends with a non-whitespace character |
| JsText.TrimStripsOnlyWhitespace | src/components/Admin/Admin.jsx:578 | the trimmed text sits inside the original with only whitespace around it |
| JsText.TrimIdempotent | src/components/Admin/Admin.jsx:575-578 | trimming twice equals trimming once |
| ProductImages.AdditionalRows | src/components/Admin/Admin.jsx:323-329 | the additional image at index i is written with display_order i+1, the product id and the title as alt text |
| ProductImages.StoreImages | src/components/Admin/Admin.jsx:311-352 | deleting every row but the main URL, inserting the additional rows and upserting the main row succeeds iff the additional URLs are distinct and do not collide with a kept main row; the main URL ends at display_order 0 and each other additional URL at its index + 1 (with no main URL, a kept empty-URL row keeps its old entry); when the insert is rejected the delete has already run, so only the kept main-URL row is left, unchanged |
| ProductImages.SortedListingUnique | src/components/Admin/Admin.jsx:400-404 | with distinct display orders, the select ordered by display_order has exactly one possible answer |
| ProductImages.FindMain | src/components/Admin/Admin.jsx:409 | `find` returns the first row with display_order 0 (every earlier row has another order), or none when no row has it |
| ProductImages.SplitImages | src/components/Admin/Admin.jsx:408-418 | the main image is the URL of the first display-order-0 row when that URL is non-empty, otherwise the product's own URL; the additional images are an order-preserving subsequence of the rows' URLs that holds the URL of every row with a positive display order and only such URLs |
| ProductImages.SplitCanonical | src/components/Admin/Admin.jsx:408-418 | splitting the rows main-first then additional gives the main URL (or the product's URL when there is none) and the additional URLs in order |
| ProductImages.StoredTableListing | src/components/Admin/Admin.jsx:311-352 | after the store the table holds exactly the main row at 0 and the additional rows at 1..n, with distinct display orders |
| ProductImages.ImagesRoundTrip | src/components/Admin/Admin.jsx:324-418 | saving an image form whose additional URLs are distinct and differ from the main URL, then reading the rows back in display order and splitting them, gives the same form, unless the form has no main image and the product already had an empty-URL row |
| ProductImages.StaleEmptyRowSurvives | src/components/Admin/Admin.jsx:313-346 | an empty-URL row survives a save with no main image (the delete keeps the row equal to the empty main URL and nothing rewrites it) and comes back as an extra additional image |
| ProductImages.DuplicateEditFailsStore | src/components/Admin/Admin.jsx:1176-1179 | an inline edit that repeats another additional URL makes the insert fail after the delete, leaving only the product's earlier main-URL row and none of the new rows |
| ProductImages.RejectedSaveDropsOldImages | src/components/Admin/Admin.jsx:313-335 | a rejected insert loses the product's earlier additional images: rows "a" and "m" saved with main "m" and additional ["b", "b"] leave only "m" |
| ProductImages.SubmittedFormRoundTrip | src/components/Admin/Admin.jsx:1136-1142 | for every form the browser submits (the main-image input is required, so the main URL is non-empty), saving and reading back gives the same form, with the main row first, whatever rows the product had before |
| ProductImages.MainAlsoAdditional | src/components/Admin/Admin.jsx:339-349 | a main URL also listed as additional is moved to display_order 0 by the upsert and leaves the additional list |
| OrderDetailsView.CalculateOrderTotals | src/components/OrderDetails/OrderDetails.jsx:166-173 | the subtotal is recomputed as the sum of price×quantity over the items; shipping, tax and total are the stored columns, 0 when absent |
| OrderDetailsView.PageAgreesWithCheckout | src/components/OrderDetails/OrderDetails.jsx:166-172 | for an order filled from the checkout totals of its cart, the page's subtotal equals the checkout subtotal and the stored total equals subtotal + shipping + tax |
| OrderDetailsView.StoredTotalIsNotRecomputed | src/components/OrderDetails/OrderDetails.jsx:168-170 | a stored total that disagrees with the items is shown as stored |
| OrderDetailsView.IndexOf | src/components/OrderDetails/OrderDetails.jsx:302-303 | `indexOf` is -1 iff the value is absent, otherwise the first position holding it |
| OrderDetailsView.Timeline | src/components/OrderDetails/OrderDetails.jsx:294-305 | for a status at step k the active steps are exactly those at or before k; for any other status none is active |
| OrderDetailsView.TimelineIsPrefix | src/components/OrderDetails/OrderDetails.jsx:300-305 | the active steps always form a prefix of the timeline |
| OrderDetailsView.CancelledLightsNothing | src/components/OrderDetails/OrderDetails.jsx:301-304 | a Cancelled order has no active step |
| OrderDetailsView.StatusColorsDistinct | src/components/OrderDetails/OrderDetails.jsx:132-147 | the five known statuses map to five different colour classes, none of them the default; every other value gets the gray default |
| OrderDetailsView.SetStatus | src/components/OrderDetails/OrderDetails.jsx:112 | the local update changes only the order's status |
| OrderDetailsView.OrderSource | src/components/OrderDetails/OrderDetails.jsx:567 | the label is "Registered User" iff the order has a non-empty user id, and "Guest Checkout" otherwise |
| OrderDetailsView.OrderSourceDependsOnUserOnly | src/components/OrderDetails/OrderDetails.jsx:567 | two orders with the same user id get the same label whatever their other columns |
| SignedInLists.AddToCart | src/components/Home/Home.jsx:116-126 | without a token the added ids are unchanged and the shopper is sent to /login; with one the id is appended (same code in Products.jsx:111-121, ProductDetails.jsx:98-108, Wishlist.jsx:40-50) |
| SignedInLists.AddThenDisabled | src/components/Home/Home.jsx:214 | a signed-in add disables that card's button and keeps every disabled button disabled (same rule in Products.jsx:196) |
| SignedInLists.WishlistAction | src/components/Home/Home.jsx:128-144 | without a token the wished ids are unchanged and the shopper is sent to /login; with one the id is toggled (same code in Products.jsx:123-139, ProductDetails.jsx:110-126) |
| SignedInLists.ToggleWish | src/components/Home/Home.jsx:137-143 | a present id is removed everywhere, an absent one appended; the id is wished afterwards iff it was not before |
| SignedInLists.ToggleTwiceRestores | src/components/Products/Products.jsx:132-138 | toggling an absent id twice gives the list back |
| SignedInLists.ToggleKeepsNoDuplicates | src/components/ProductDetails/ProductDetails.jsx:119-125 | the toggle never introduces a duplicate id |
| SignedInLists.RemoveId | src/components/Wishlist/Wishlist.jsx:53 | the id is gone, every other id stays, in order and as many times as before, and nothing new appears |
| SignedInLists.RemoveAbsent | src/components/Wishlist/Wishlist.jsx:53 | removing an absent id changes nothing, so removal is idempotent |
| ProductDetailsView.SelectProduct | src/components/ProductDetails/ProductDetails.jsx:128-135 | a known id selects its product and shows its cover image; an unknown id leaves the page state as it was |
| ProductDetailsView.OpenedPage | src/components/ProductDetails/ProductDetails.jsx:128-157 | on a fresh page a known id shows that product and an unknown id shows "Product not found" |
| ProductDetailsView.Thumbnails | src/components/ProductDetails/ProductDetails.jsx:163 | the thumbnails are the first min(4, n) images, in order, and none before a product is selected |
| WishlistView.InitialWishIds | src/components/Wishlist/Wishlist.jsx:61 | on mount the wished ids are the static cards' ids, in order |
| WishlistView.InitialIdsOfStaticList | src/components/Wishlist/Wishlist.jsx:13-61 | the static list gives the ids "1", "3", "5" |
| WishlistView.RemoveFromWishlist | src/components/Wishlist/Wishlist.jsx:52-55 | every occurrence of the id goes, the others keep their order and their number of occurrences, and no token is consulted |
| WishlistView.RemovedCardStillShown | src/components/Wishlist/Wishlist.jsx:91-159 | the page as written renders the static list, which after removing "1" differs from the wished cards, and with nothing wished is still not empty, so the empty state cannot appear |
| WishlistView.CardsShown | src/components/Wishlist/Wishlist.jsx:91-155 | the cards rendered are those whose id is wished, in list order, each as many times as in the list |
| WishlistView.ShownCardsFollowRemoval | src/components/Wishlist/Wishlist.jsx:52-61 | every card shows on mount, a removed id's card disappears, and removing every id empties the page |
| Brands.FilterBrands | src/components/Brands/Brands.jsx:76-81 | a brand is kept iff its lower-cased name contains the lower-cased term, as many times as it occurs in the list; the result is an order-preserving subsequence no longer than the list |
| Brands.EmptyTermShowsAll | src/components/Brands/Brands.jsx:77-79 | an empty term returns every brand, so clearing the search restores the list |
| Brands.LongerTermNarrows | src/components/Brands/Brands.jsx:78 | when one term occurs in another, the results for the longer are an order-preserving part of the results for the shorter |
| Brands.CaseOfTermIrrelevant | src/components/Brands/Brands.jsx:78 | lower-casing the term does not change the results |
| Brands.Counts | src/components/Brands/Brands.jsx:146-149 | the count shown is the length of the filtered list, at most the number of brands and equal to it without a search, and the heading reports a search iff the term is non-empty |
| JsText.IncludesTransitive | src/components/Brands/Brands.jsx:78 | an occurrence of an occurrence is an occurrence |
| JsText.LowerKeepsIncludes | src/components/Brands/Brands.jsx:78 | lower-casing both strings keeps an occurrence |
| JsText.IncludesHasPosition | src/components/Brands/Brands.jsx:78 | `includes` holds only when the term occurs at some position |
| JsText.PositionGivesIncludes | src/components/Brands/Brands.jsx:78 | an occurrence at any position makes `includes` hold |
| Login.SignIn | src/components/Login/Login.jsx:24-55 | loading ends false; with both fields non-empty the session gets the token; if the storage write succeeds the token is stored too, the shopper goes to / and the error is cleared, and if it throws the failure message is shown with nothing stored and no navigation; with a field empty the missing-fields error is set and no token is set or stored |
| Login.DemoCredentialsNotSpecial | src/components/Login/Login.jsx:33-44 | the demo credentials and any other non-empty pair give the same outcome, whether or not the storage write succeeds |
| Login.DemoToken | src/components/Login/Login.jsx:34 | the token starts with "demo_user_token_" and has more after it |
| Login.DecimalRoundTrip | src/components/Login/Login.jsx:41 | the decimal digits of the clock reading read back as that reading |
| Login.TokenCarriesClock | src/components/Login/Login.jsx:34-43 | the session token is the demo prefix followed by the clock reading, and it is the stored token when the storage write succeeds |
| Login.FailedWriteSplitsSession | src/components/Login/Login.jsx:35-51 | when the storage write throws, the session holds a token while storage holds none, the failure message is shown and there is no navigation |

## Left out

- Database calls (auth session, selects, inserts, updates, deletes, upserts, the admin-role check): they are asynchronous foreign calls. Their results are inputs; only the list update after a successful call is modelled. A failed call or a cancelled `window.confirm` leaves the lists as they were.
- Order writing, sales counters, order numbers and notifications: the checkout page performs none of them.
- Timers, toasts and `Promise.all`: delays do not change any modelled value; navigation is an output value.
- Floating-point prices, `parseFloat`/`parseInt` and `toFixed` display rounding: money is exact `real`.
- The validation library's email syntax: a parameter `isEmail`. Which message a failing field shows is library-internal; only whether it fails is modelled.
- Checkout.SubmitDisabled: uses full form validity; the form library reports "valid" until validation first runs, so the live button is enabled on an untouched form, and the click then validates and blocks.
- String lengths count Unicode code points; JavaScript counts UTF-16 units, so a character outside the Basic Multilingual Plane counts twice there.
- `toLowerCase` is modelled for ASCII letters only.
- The catch branches of the payment procedures: the simulated code inside them (a timer, a toast, a navigation) is not modelled as failing.
- ImagesRoundTrip: does not cover a save with no main image onto a product that already has an empty-URL row; that row is left over and reappears (StaleEmptyRowSurvives), which the inline edit makes possible. The main-image input is `required`, so the browser does not submit such a form; SubmittedFormRoundTrip states the round trip for the forms it does submit.
- ProductImages.StoreImages: rows of other products and the row `id` column are not modelled; a failed delete or upsert is not distinguished from success (a rejected insert is).
- A product save whose image step throws: the `products` row has already been inserted or updated while the page's list stays as it was; the `products` table itself is not modelled, only the page's list and the product's image rows.
- Product and category form fields other than images, and `resetProductForm`: plain field copies.
- Property lookups on the details page's catalogue object that hit inherited names (such as `toString`): the catalogue is a map.
- Navbar, Category, HomeCategory, markup, animations and styles: no logic of the modelled kind.

## Findings

| source | as written | input that shows it | evidently intended | confidence | as-written member | corrected member |
|---|---|---|---|---|---|---|
| src/components/Wishlist/Wishlist.jsx:91 | the page renders `staticWishlist`, never `wishItems`, and the empty state tests `staticWishlist.length` | mount, then remove "1": "1" is no longer wished but its card is still rendered; removing all three ids never shows the empty state | render the cards whose id is still wished | high, not executed | WishlistView.RemovedCardStillShown | WishlistView.ShownCardsFollowRemoval |
| src/components/Admin/Admin.jsx:293-297 | a new product is prepended without recomputing the statistics, unlike deletion | load empty lists, add one product: the dashboard still shows 0 products | recompute the statistics as deletion does | medium, not executed | AdminLists.AddedProductLeavesStaleCount | AdminLists.SaveProduct |
| src/components/Admin/Admin.jsx:497 | a new category is prepended without recomputing the statistics, unlike deletion | load empty lists, add one category: the dashboard still shows 0 categories | recompute the statistics as deletion does | medium, not executed | AdminLists.AddedCategoryLeavesStaleCount | AdminLists.SaveCategory |

=== FILE: admin.dfy ===
/** The admin panel's in-memory lists and the updates it applies to them once
    the corresponding database call has succeeded: dashboard statistics,
    order-status changes, category and product deletion, product and category
    saves, and the additional-image list of the product form. */
module AdminLists {
  import opened Wrappers
  import opened Seqs
  import opened JsText
  import opened Records

  // ---------------------------------------------------------------------
  // Dashboard statistics
  // ---------------------------------------------------------------------

  datatype Stats = Stats(totalProducts: nat, totalCategories: nat, totalOrders: nat, totalUsers: nat, totalRevenue: real)

  /** An order's contribution to revenue; a missing total counts as 0. */
  function OrderRevenue(o: Order): real {
    o.totalAmount.GetOr(0.0)
  }

  function Revenue(orders: seq<Order>): real {
    SumOf(orders, OrderRevenue)
  }

  function StatsOf(products: seq<Product>, categories: seq<Category>, orders: seq<Order>, users: seq<Profile>): Stats {
    Stats(|products|, |categories|, |orders|, |users|, Revenue(orders))
  }

  /** `calculateStats`: the four counts are the list lengths and the revenue is
      the running sum of the order totals. */
  method CalculateStats(products: seq<Product>, categories: seq<Category>, orders: seq<Order>, users: seq<Profile>)
    returns (s: Stats)
    ensures s.totalProducts == |products| && s.totalCategories == |categories|
    ensures s.totalOrders == |orders| && s.totalUsers == |users|
    ensures s.totalRevenue == SumOf(orders, OrderRevenue)
    ensures s == StatsOf(products, categories, orders, users)
  {
    var revenue := Reduce(orders, OrderRevenue);
    s := Stats(|products|, |categories|, |orders|, |users|, revenue);
  }

  /** Revenue adds up over a split of the order list, and orders without a
      total contribute nothing. */
  lemma RevenueOfJoin(a: seq<Order>, b: seq<Order>)
    ensures Revenue(a + b) == Revenue(a) + Revenue(b)
    ensures (forall i :: 0 <= i < |b| ==> b[i].totalAmount.None?) ==> Revenue(a + b) == Revenue(a)
  {
    SumOfAppend(a, b, OrderRevenue);
    if forall i :: 0 <= i < |b| ==> b[i].totalAmount.None? {
      SumOfNonNegative(b, OrderRevenue);
    }
  }

  /** The panel's state: the four lists and the statistics shown on the
      dashboard. */
  datatype AdminState = AdminState(
    products: seq<Product>, categories: seq<Category>, orders: seq<Order>, users: seq<Profile>,
    stats: Stats)

  /** The dashboard agrees with the lists. */
  predicate StatsCurrent(st: AdminState) {
    st.stats == StatsOf(st.products, st.categories, st.orders, st.users)
  }

  /** The state right after the initial load, which computes the statistics
      from the fetched lists. */
  function Loaded(products: seq<Product>, categories: seq<Category>, orders: seq<Order>, users: seq<Profile>): (st: AdminState)
    ensures StatsCurrent(st)
    ensures st.products == products && st.categories == categories
    ensures st.orders == orders && st.users == users
  {
    AdminState(products, categories, orders, users, StatsOf(products, categories, orders, users))
  }

  // ---------------------------------------------------------------------
  // Orders
  // ---------------------------------------------------------------------

  /** The list update after an order's status is written: the order with that
      id gets the new status and nothing else changes. */
  function SetOrderStatus(orders: seq<Order>, id: string, status: string): (r: seq<Order>)
    ensures |r| == |orders|
    ensures forall i :: 0 <= i < |r| && orders[i].id == id ==>
              r[i].status == status && r[i].(status := orders[i].status) == orders[i]
    ensures forall i :: 0 <= i < |r| && orders[i].id != id ==> r[i] == orders[i]
  {
    seq(|orders|, i requires 0 <= i < |orders| =>
      if orders[i].id == id then orders[i].(status := status) else orders[i])
  }

  /** Setting the same status again changes nothing more, and the latest
      status wins. */
  lemma SetOrderStatusTwice(orders: seq<Order>, id: string, s1: string, s2: string)
    ensures SetOrderStatus(SetOrderStatus(orders, id, s1), id, s2) == SetOrderStatus(orders, id, s2)
  {
  }

  /** `handleUpdateOrderStatus` does not recompute the dashboard, and it need
      not: a status change keeps every count and the revenue. */
  function UpdateOrderStatus(st: AdminState, id: string, status: string): (r: AdminState)
    ensures StatsCurrent(st) ==> StatsCurrent(r)
    ensures r.orders == SetOrderStatus(st.orders, id, status)
    ensures r.(orders := st.orders) == st
  {
    var orders := SetOrderStatus(st.orders, id, status);
    SumOfPointwise(st.orders, orders, OrderRevenue);
    st.(orders := orders)
  }

  // ---------------------------------------------------------------------
  // Categories
  // ---------------------------------------------------------------------

  function WithoutCategory(categories: seq<Category>, id: string): seq<Category> {
    Filter(categories, (c: Category) => c.id != id)
  }

  /** Products that used the deleted category lose both the category id and
      the joined category; the others are untouched. */
  function DetachCategory(products: seq<Product>, id: string): (r: seq<Product>)
    ensures |r| == |products|
    ensures forall i :: 0 <= i < |r| && products[i].categoryId == Some(id) ==>
              r[i] == products[i].(categoryId := None, category := None)
    ensures forall i :: 0 <= i < |r| && products[i].categoryId != Some(id) ==> r[i] == products[i]
    ensures forall i :: 0 <= i < |r| ==> r[i].categoryId != Some(id)
  {
    seq(|products|, i requires 0 <= i < |products| =>
      if products[i].categoryId == Some(id) then products[i].(categoryId := None, category := None)
      else products[i])
  }

  /** `handleDeleteCategory`: the category is gone, no product refers to it,
      the remaining categories keep their order, and the dashboard is
      recomputed. */
  function DeleteCategory(st: AdminState, id: string): (r: AdminState)
    ensures forall i :: 0 <= i < |r.categories| ==> r.categories[i].id != id
    ensures forall i :: 0 <= i < |st.categories| && st.categories[i].id != id ==> st.categories[i] in r.categories
    ensures IsSubsequence(r.categories, st.categories)
    ensures forall i :: 0 <= i < |r.products| ==> r.products[i].categoryId != Some(id)
    ensures |r.products| == |st.products|
    ensures r.categories == WithoutCategory(st.categories, id)
    ensures r.products == DetachCategory(st.products, id)
    ensures r.orders == st.orders && r.users == st.users
    ensures StatsCurrent(r)
  {
    var categories := WithoutCategory(st.categories, id);
    st.(categories := categories,
        products := DetachCategory(st.products, id),
        stats := StatsOf(st.products, categories, st.orders, st.users))
  }

  /** Deleting a category id that no longer exists changes nothing but a
      recomputation of the dashboard. */
  lemma DeleteCategoryTwice(st: AdminState, id: string)
    ensures DeleteCategory(DeleteCategory(st, id), id) == DeleteCategory(st, id)
  {
    var once := DeleteCategory(st, id);
    FilterKeepsAll(once.categories, (c: Category) => c.id != id);
  }

  // ---------------------------------------------------------------------
  // Products
  // ---------------------------------------------------------------------

  function WithoutProduct(products: seq<Product>, id: string): seq<Product> {
    Filter(products, (p: Product) => p.id != id)
  }

  /** `handleDeleteProduct`: the id is gone, every other product stays in its
      order, and `totalProducts` is the length of the filtered list. */
  function DeleteProduct(st: AdminState, id: string): (r: AdminState)
    ensures forall i :: 0 <= i < |r.products| ==> r.products[i].id != id
    ensures forall i :: 0 <= i < |st.products| && st.products[i].id != id ==> st.products[i] in r.products
    ensures forall i :: 0 <= i < |st.products| && st.products[i].id != id ==>
              multiset(r.products)[st.products[i]] == multiset(st.products)[st.products[i]]
    ensures IsSubsequence(r.products, st.products)
    ensures r.products == WithoutProduct(st.products, id)
    ensures r.stats.totalProducts == |r.products| <= |st.products|
    ensures r.categories == st.categories && r.orders == st.orders && r.users == st.users
    ensures StatsCurrent(r)
  {
    var products := WithoutProduct(st.products, id);
    st.(products := products, stats := StatsOf(products, st.categories, st.orders, st.users))
  }

  function ProductId(p: Product): string { p.id }
  function CategoryId(c: Category): string { c.id }

  /** The list update after a successful save, shared by products and
      categories: the saved row replaces every row with the edited id, in
      place; a new row goes to the front. */
  function SaveInto<T>(rows: seq<T>, key: T -> string, editing: Option<string>, saved: T): (r: seq<T>)
    ensures editing.None? ==> |r| == |rows| + 1 && r[0] == saved && r[1..] == rows
    ensures editing.Some? ==> |r| == |rows|
    ensures editing.Some? ==> forall i :: 0 <= i < |r| && key(rows[i]) == editing.value ==> r[i] == saved
    ensures editing.Some? ==> forall i :: 0 <= i < |r| && key(rows[i]) != editing.value ==> r[i] == rows[i]
  {
    match editing
    case None => [saved] + rows
    case Some(id) =>
      seq(|rows|, i requires 0 <= i < |rows| => if key(rows[i]) == id then saved else rows[i])
  }

  /** Adding a product with a fresh id and then deleting it gives the list
      back. */
  lemma {:induction false} AddThenDeleteProduct(products: seq<Product>, saved: Product)
    requires forall i :: 0 <= i < |products| ==> products[i].id != saved.id
    ensures WithoutProduct(SaveInto(products, ProductId, None, saved), saved.id) == products
  {
    var added := SaveInto(products, ProductId, None, saved);
    assert added[1..] == products;
    FilterKeepsAll(products, (p: Product) => p.id != saved.id);
  }

  /** `handleProductSubmit` as written: the list is updated but the dashboard
      statistics are left as they were. */
  function SaveProductAsWritten(st: AdminState, editing: Option<string>, saved: Product): (r: AdminState)
    ensures r.products == SaveInto(st.products, ProductId, editing, saved)
    ensures r.stats == st.stats
    ensures r.(products := st.products) == st
  {
    st.(products := SaveInto(st.products, ProductId, editing, saved))
  }

  /** After adding a product the dashboard still shows the old product count. */
  lemma AddedProductLeavesStaleCount(saved: Product)
    ensures var st := Loaded([], [], [], []);
            StatsCurrent(st) &&
            !StatsCurrent(SaveProductAsWritten(st, None, saved)) &&
            SaveProductAsWritten(st, None, saved).stats.totalProducts == 0 &&
            |SaveProductAsWritten(st, None, saved).products| == 1
  {
  }

  /** Saving a product with the dashboard recomputed, as deletion does. */
  function SaveProduct(st: AdminState, editing: Option<string>, saved: Product): (r: AdminState)
    ensures r.products == SaveInto(st.products, ProductId, editing, saved)
    ensures r.categories == st.categories && r.orders == st.orders && r.users == st.users
    ensures StatsCurrent(r)
    ensures editing.None? ==> r.stats.totalProducts == |st.products| + 1
  {
    var products := SaveInto(st.products, ProductId, editing, saved);
    st.(products := products, stats := StatsOf(products, st.categories, st.orders, st.users))
  }

  /** `handleCategorySubmit` as written: the dashboard is left as it was. */
  function SaveCategoryAsWritten(st: AdminState, editing: Option<string>, saved: Category): (r: AdminState)
    ensures r.categories == SaveInto(st.categories, CategoryId, editing, saved)
    ensures r.stats == st.stats
    ensures r.(categories := st.categories) == st
  {
    st.(categories := SaveInto(st.categories, CategoryId, editing, saved))
  }

  /** After adding a category the dashboard still shows the old count. */
  lemma AddedCategoryLeavesStaleCount(saved: Category)
    ensures var st := Loaded([], [], [], []);
            StatsCurrent(st) &&
            !StatsCurrent(SaveCategoryAsWritten(st, None, saved)) &&
            SaveCategoryAsWritten(st, None, saved).stats.totalCategories == 0
  {
  }

  /** Saving a category with the dashboard recomputed. */
  function SaveCategory(st: AdminState, editing: Option<string>, saved: Category): (r: AdminState)
    ensures r.categories == SaveInto(st.categories, CategoryId, editing, saved)
    ensures r.products == st.products && r.orders == st.orders && r.users == st.users
    ensures StatsCurrent(r)
    ensures editing.None? ==> r.stats.totalCategories == |st.categories| + 1
  {
    var categories := SaveInto(st.categories, CategoryId, editing, saved);
    st.(categories := categories, stats := StatsOf(st.products, categories, st.orders, st.users))
  }

  // ---------------------------------------------------------------------
  // The additional-image list of the product form
  // ---------------------------------------------------------------------

  /** A URL the form will keep: trimmed and not empty. */
  predicate IsKeptUrl(u: string) {
    u != [] && Trim(u) == u
  }

  /** `addAdditionalImage`: the text entered at the prompt (`None` when the
      prompt is cancelled) is appended trimmed, unless it is blank. */
  function AddAdditionalImage(images: seq<string>, entered: Option<string>): (r: seq<string>)
    ensures entered.Some? && !IsBlank(entered.value) ==> r == images + [Trim(entered.value)]
    ensures entered.None? || IsBlank(entered.value) ==> r == images
    ensures (forall i :: 0 <= i < |images| ==> IsKeptUrl(images[i])) ==>
            forall i :: 0 <= i < |r| ==> IsKeptUrl(r[i])
  {
    match entered
    case None => images
    case Some(text) =>
      var t := Trim(text);
      TrimIdempotent(text);
      if text != [] && t != [] then images + [t] else images
  }

  /** `removeAdditionalImage`: `splice(index, 1)` on a copy. A negative index
      counts from the end (and is clamped to 0); an index at or past the end
      removes nothing. */
  function RemoveAdditionalImage(images: seq<string>, index: int): (r: seq<string>)
    ensures 0 <= index < |images| ==> r == images[..index] + images[index + 1..]
    ensures index >= |images| ==> r == images
    ensures -|images| <= index < 0 ==> r == images[..|images| + index] + images[|images| + index + 1..]
    ensures index < -|images| && images != [] ==> r == images[1..]
    ensures |r| == if images == [] || index >= |images| then |images| else |images| - 1
    ensures IsSubsequence(r, images)
  {
    var start := if index < 0 then (if |images| + index < 0 then 0 else |images| + index)
                 else (if index > |images| then |images| else index);
    if start < |images| then
      SpliceOutIsSubsequence(images, start);
      images[..start] + images[start + 1..]
    else
      SubsequenceRefl(images);
      images
  }

  /** The inline input of an additional image: `newImages[index] = value`
      at the index the list renders the input for. The value is stored as
      typed: it may be empty, untrimmed, or repeat another URL. */
  function EditAdditionalImage(images: seq<string>, index: nat, value: string): (r: seq<string>)
    requires index < |images|
    ensures |r| == |images|
    ensures r[index] == value
    ensures forall i :: 0 <= i < |images| && i != index ==> r[i] == images[i]
  {
    images[index := value]
  }

  /** Removing an edited image removes the edit with it. */
  lemma RemoveUndoesEdit(images: seq<string>, index: nat, value: string)
    requires index < |images|
    ensures RemoveAdditionalImage(EditAdditionalImage(images, index, value), index) ==
            RemoveAdditionalImage(images, index)
  {
    var edited := EditAdditionalImage(images, index, value);
    assert edited[..index] == images[..index];
    assert edited[index + 1..] == images[index + 1..];
  }

  lemma {:induction false} SpliceOutIsSubsequence<T>(xs: seq<T>, k: nat)
    requires k < |xs|
    ensures IsSubsequence(xs[..k] + xs[k + 1..], xs)
    decreases k
  {
    var r := xs[..k] + xs[k + 1..];
    if k == 0 {
      assert r == xs[1..];
      SubsequenceRefl(xs[1..]);
    } else {
      assert r[0] == xs[0];
      assert r[1..] == xs[1..][..k - 1] + xs[1..][k..];
      SpliceOutIsSubsequence(xs[1..], k - 1);
    }
  }

  /** Removing the image just added gives the list back. */
  lemma AddThenRemoveImage(images: seq<string>, entered: string)
    requires !IsBlank(entered)
    ensures RemoveAdditionalImage(AddAdditionalImage(images, Some(entered)), |images|) == images
  {
    var added := AddAdditionalImage(images, Some(entered));
    assert added[..|images|] == images;
  }
}

=== FILE: brands.dfy ===
/** The brands page: a case-insensitive search over the fixed list of brands,
    and the result counts shown above the grid. */
module Brands {
  import opened Seqs
  import opened JsText

  datatype Brand = Brand(id: string, name: string)

  const StaticBrands: seq<Brand> := [
    Brand("1", "Nike"), Brand("2", "Adidas"), Brand("3", "Under Armour"), Brand("4", "Puma"),
    Brand("5", "Reebok"), Brand("6", "New Balance"), Brand("7", "ASICS"), Brand("8", "Lululemon"),
    Brand("9", "The North Face"), Brand("10", "Columbia"), Brand("11", "Patagonia"), Brand("12", "Fila")]

  /** `brand.name.toLowerCase().includes(searchTerm.toLowerCase())`. */
  predicate Matches(b: Brand, term: string) {
    Includes(Lower(b.name), Lower(term))
  }

  /** The search effect: the brands that match, in list order. */
  function FilterBrands(brands: seq<Brand>, term: string): (r: seq<Brand>)
    ensures forall i :: 0 <= i < |r| ==> r[i] in brands && Matches(r[i], term)
    ensures forall i :: 0 <= i < |brands| && Matches(brands[i], term) ==> brands[i] in r
    ensures forall i :: 0 <= i < |brands| ==>
              multiset(r)[brands[i]] == if Matches(brands[i], term) then multiset(brands)[brands[i]] else 0
    ensures IsSubsequence(r, brands)
    ensures |r| <= |brands|
  {
    Filter(brands, (b: Brand) => Matches(b, term))
  }

  /** Clearing the search shows every brand. */
  lemma EmptyTermShowsAll(brands: seq<Brand>)
    ensures FilterBrands(brands, "") == brands
  {
    forall b: Brand ensures Matches(b, "") {
      IncludesEmpty(Lower(b.name));
    }
    FilterKeepsAll(brands, (b: Brand) => Matches(b, ""));
  }

  /** Typing more narrows the results: when `shorter` occurs in `longer`, the
      brands found for `longer` are found for `shorter` too, in the same
      order. */
  lemma LongerTermNarrows(brands: seq<Brand>, shorter: string, longer: string)
    requires Includes(longer, shorter)
    ensures IsSubsequence(FilterBrands(brands, longer), FilterBrands(brands, shorter))
  {
    LowerKeepsIncludes(longer, shorter);
    forall b: Brand | Matches(b, longer) ensures Matches(b, shorter) {
      IncludesTransitive(Lower(b.name), Lower(longer), Lower(shorter));
    }
    FilterMonotone(brands, (b: Brand) => Matches(b, longer), (b: Brand) => Matches(b, shorter));
  }

  /** The case of the search term does not matter. */
  lemma CaseOfTermIrrelevant(brands: seq<Brand>, term: string)
    ensures FilterBrands(brands, Lower(term)) == FilterBrands(brands, term)
  {
    LowerIdempotent(term);
    FilterSameTest(brands, (b: Brand) => Matches(b, Lower(term)), (b: Brand) => Matches(b, term));
  }

  /** "Showing n of m brands", and whether the heading reports a search. */
  datatype ResultCounts = ResultCounts(searching: bool, shown: nat, total: nat)

  function Counts(term: string): (c: ResultCounts)
    ensures c.shown == |FilterBrands(StaticBrands, term)|
    ensures c.shown <= c.total == |StaticBrands|
    ensures c.searching <==> term != []
    ensures !c.searching ==> c.shown == c.total
  {
    EmptyTermShowsAll(StaticBrands);
    ResultCounts(term != [], |FilterBrands(StaticBrands, term)|, |StaticBrands|)
  }
}

=== FILE: checkout.dfy ===
/** The checkout page: cart pricing, the field rules of the order form, the
    payment-method dispatch and the rule that enables the place-order button. */
module Checkout {
  import opened Wrappers
  import opened Seqs
  import opened JsText

  // ---------------------------------------------------------------------
  // Pricing
  // ---------------------------------------------------------------------

  /** One cart entry: a product at a unit price, `count` times. */
  datatype CartLine = CartLine(productId: string, title: string, price: real, count: int)

  /** Shipping charged on any cart whose subtotal is positive. */
  const FlatShipping: real := 15.0

  /** The tax rate, 10%. */
  const TaxRate: real := 0.1

  datatype Totals = Totals(subtotal: real, shipping: real, tax: real, total: real)

  function LineAmount(l: CartLine): real {
    l.price * l.count as real
  }

  /** The sum of price times count over the cart. */
  function Subtotal(cart: seq<CartLine>): real {
    SumOf(cart, LineAmount)
  }

  /** The shipping rule and the tax rule, applied to a subtotal. */
  function TotalsOf(subtotal: real): (t: Totals)
    ensures t.subtotal == subtotal
    ensures t.shipping == FlatShipping <==> subtotal > 0.0
    ensures t.shipping == 0.0 <==> subtotal <= 0.0
    ensures t.tax * 10.0 == subtotal
    ensures t.total == t.subtotal + t.shipping + t.tax
  {
    var shipping := if subtotal > 0.0 then FlatShipping else 0.0;
    var tax := subtotal * TaxRate;
    Totals(subtotal, shipping, tax, subtotal + shipping + tax)
  }

  /** The totals shown on the page: the subtotal is the left-to-right running
      sum of price times count, as `reduce` computes it. */
  method CartTotals(cart: seq<CartLine>) returns (t: Totals)
    ensures t.subtotal == Subtotal(cart)
    ensures cart == [] ==> t == Totals(0.0, 0.0, 0.0, 0.0)
    ensures t.shipping == (if t.subtotal > 0.0 then FlatShipping else 0.0)
    ensures t.tax * 10.0 == t.subtotal
    ensures t.total == t.subtotal + t.shipping + t.tax
  {
    var subtotal := Reduce(cart, LineAmount);
    t := TotalsOf(subtotal);
  }

  /** The worked example of the store's own demo cart: one line at 129.99 and
      two at 59.99. */
  lemma DemoCartTotals()
    ensures TotalsOf(Subtotal([CartLine("1", "Running Shoes Pro", 129.99, 1),
                               CartLine("3", "Yoga Leggings Premium", 59.99, 2)]))
            == Totals(249.97, 15.0, 24.997, 289.967)
  {
    var cart := [CartLine("1", "Running Shoes Pro", 129.99, 1),
                 CartLine("3", "Yoga Leggings Premium", 59.99, 2)];
    assert cart[1..][1..] == [];
    assert Subtotal(cart) == 129.99 + 59.99 * 2.0 + 0.0;
  }

  /** Joining two carts adds their subtotals. */
  lemma SubtotalOfJoin(a: seq<CartLine>, b: seq<CartLine>)
    ensures Subtotal(a + b) == Subtotal(a) + Subtotal(b)
  {
    SumOfAppend(a, b, LineAmount);
  }

  /** Lines with non-negative prices and counts of at least one: the subtotal is
      non-negative, and shipping is waived exactly when every line is free. */
  lemma ShippingOnlyForPaidCarts(cart: seq<CartLine>)
    requires forall i :: 0 <= i < |cart| ==> cart[i].price >= 0.0 && cart[i].count >= 1
    ensures Subtotal(cart) >= 0.0
    ensures TotalsOf(Subtotal(cart)).shipping == 0.0 <==>
            forall i :: 0 <= i < |cart| ==> cart[i].price == 0.0
  {
    assert forall i :: 0 <= i < |cart| ==> LineAmount(cart[i]) >= 0.0;
    SumOfNonNegative(cart, LineAmount);
    assert forall i :: 0 <= i < |cart| ==> (LineAmount(cart[i]) == 0.0 <==> cart[i].price == 0.0);
  }

  /** Entering checkout with an empty cart sends the shopper back to `/cart`. */
  function EntryRedirect(cart: seq<CartLine>): (r: Option<string>)
    ensures r.Some? <==> cart == []
    ensures r.Some? ==> r.value == "/cart"
  {
    if |cart| == 0 then Some("/cart") else None
  }

  /** For carts of priced lines, the redirect happens exactly when the
      totals would all be zero; every cart that stays on the page pays
      shipping. */
  lemma RedirectExactlyWhenNothingToPay(cart: seq<CartLine>)
    requires forall i :: 0 <= i < |cart| ==> cart[i].price > 0.0 && cart[i].count >= 1
    ensures EntryRedirect(cart).Some? <==> TotalsOf(Subtotal(cart)) == Totals(0.0, 0.0, 0.0, 0.0)
    ensures EntryRedirect(cart).None? ==> TotalsOf(Subtotal(cart)).shipping == FlatShipping
  {
    ShippingOnlyForPaidCarts(cart);
    if cart != [] {
      assert cart[0].price != 0.0;
    }
  }

  // ---------------------------------------------------------------------
  // The order form
  // ---------------------------------------------------------------------

  datatype Field = FirstName | LastName | Email | Details | City | Phone

  datatype CheckoutForm = CheckoutForm(
    firstName: string, lastName: string, email: string,
    details: string, city: string, phone: string)

  /** Every field starts empty. */
  const InitialForm := CheckoutForm("", "", "", "", "", "")

  function FieldValue(form: CheckoutForm, field: Field): string {
    match field
    case FirstName => form.firstName
    case LastName => form.lastName
    case Email => form.email
    case Details => form.details
    case City => form.city
    case Phone => form.phone
  }

  /** The form with one field replaced. */
  function WithField(form: CheckoutForm, field: Field, v: string): (r: CheckoutForm)
    ensures FieldValue(r, field) == v
    ensures forall other :: other != field ==> FieldValue(r, other) == FieldValue(form, other)
  {
    match field
    case FirstName => form.(firstName := v)
    case LastName => form.(lastName := v)
    case Email => form.(email := v)
    case Details => form.(details := v)
    case City => form.(city := v)
    case Phone => form.(phone := v)
  }

  /** A character of the phone pattern `[0-9+\-\s()]`. */
  predicate IsPhoneChar(c: char) {
    '0' <= c <= '9' || c == '+' || c == '-' || c == '(' || c == ')' || IsJsWhitespace(c)
  }

  /** The rule for one field. A required string rejects the empty string;
      `min(n)` asks for at least `n` characters; the phone must match the
      pattern in full; the email syntax check belongs to the validation
      library and is the parameter `isEmail`. */
  predicate FieldAccepts(field: Field, v: string, isEmail: string -> bool) {
    match field
    case FirstName => |v| >= 2
    case LastName => |v| >= 2
    case Email => v != [] && isEmail(v)
    case Details => |v| >= 10
    case City => |v| >= 2
    case Phone => v != [] && forall i :: 0 <= i < |v| ==> IsPhoneChar(v[i])
  }

  /** The fields that currently carry a validation error. */
  function FailingFields(form: CheckoutForm, isEmail: string -> bool): (r: set<Field>)
    ensures forall f :: f in r <==> !FieldAccepts(f, FieldValue(form, f), isEmail)
  {
    (if FieldAccepts(FirstName, form.firstName, isEmail) then {} else {FirstName}) +
    (if FieldAccepts(LastName, form.lastName, isEmail) then {} else {LastName}) +
    (if FieldAccepts(Email, form.email, isEmail) then {} else {Email}) +
    (if FieldAccepts(Details, form.details, isEmail) then {} else {Details}) +
    (if FieldAccepts(City, form.city, isEmail) then {} else {City}) +
    (if FieldAccepts(Phone, form.phone, isEmail) then {} else {Phone})
  }

  predicate FormValid(form: CheckoutForm, isEmail: string -> bool) {
    FailingFields(form, isEmail) == {}
  }

  /** The form is valid exactly when every field rule holds. */
  lemma FormValidIff(form: CheckoutForm, isEmail: string -> bool)
    ensures FormValid(form, isEmail) <==>
      && |form.details| >= 10
      && |form.city| >= 2
      && |form.firstName| >= 2 && |form.lastName| >= 2
      && form.phone != [] && (forall i :: 0 <= i < |form.phone| ==> IsPhoneChar(form.phone[i]))
      && form.email != [] && isEmail(form.email)
  {
    if !FormValid(form, isEmail) {
      var f :| f in FailingFields(form, isEmail);
    } else {
      assert FirstName !in FailingFields(form, isEmail);
      assert LastName !in FailingFields(form, isEmail);
      assert Email !in FailingFields(form, isEmail);
      assert Details !in FailingFields(form, isEmail);
      assert City !in FailingFields(form, isEmail);
      assert Phone !in FailingFields(form, isEmail);
    }
  }

  /** Correcting (or breaking) one field changes that field's error and no
      other. */
  lemma EditIsLocal(form: CheckoutForm, field: Field, v: string, isEmail: string -> bool)
    ensures FailingFields(WithField(form, field, v), isEmail) - {field}
            == FailingFields(form, isEmail) - {field}
    ensures field in FailingFields(WithField(form, field, v), isEmail) <==> !FieldAccepts(field, v, isEmail)
  {
  }

  /** The empty form fails every rule. */
  lemma InitialFormFailsEverywhere(isEmail: string -> bool)
    ensures FailingFields(InitialForm, isEmail) == {FirstName, LastName, Email, Details, City, Phone}
  {
    assert !FieldAccepts(FirstName, "", isEmail) && !FieldAccepts(LastName, "", isEmail);
    assert !FieldAccepts(Email, "", isEmail) && !FieldAccepts(Details, "", isEmail);
    assert !FieldAccepts(City, "", isEmail) && !FieldAccepts(Phone, "", isEmail);
  }

  // ---------------------------------------------------------------------
  // Submission
  // ---------------------------------------------------------------------

  datatype ShippingAddress = ShippingAddress(details: string, phone: string, city: string)

  /** The two payment procedures the form can hand the address to. */
  datatype PaymentCall = OnlinePayment(address: ShippingAddress) | CashPayment(address: ShippingAddress)

  /** Submitting validates first; a valid form is handed, with its shipping
      address, to the online procedure when the method is `online` and to the
      cash procedure for any other value. */
  function Submit(form: CheckoutForm, paymentMethod: string, isEmail: string -> bool): (r: Option<PaymentCall>)
    ensures r.Some? <==> FormValid(form, isEmail)
    ensures r.Some? ==> (r.value.OnlinePayment? <==> paymentMethod == "online")
    ensures r.Some? ==> r.value.address == ShippingAddress(form.details, form.phone, form.city)
  {
    if !FormValid(form, isEmail) then None
    else
      var address := ShippingAddress(form.details, form.phone, form.city);
      if paymentMethod == "online" then Some(OnlinePayment(address)) else Some(CashPayment(address))
  }

  /** The place-order button is disabled while a submission is loading or any
      field fails; an enabled button always leads to a payment procedure. */
  function SubmitDisabled(loading: bool, form: CheckoutForm, isEmail: string -> bool): (d: bool)
    ensures d <==> loading || !FormValid(form, isEmail)
    ensures loading ==> d
    ensures !FormValid(form, isEmail) ==> d
    ensures !d ==> Submit(form, "cash", isEmail).Some? && Submit(form, "online", isEmail).Some?
  {
    loading || !FormValid(form, isEmail)
  }

  /** What a payment procedure leaves behind: `loading` is set and is only
      cleared on failure, which the simulated procedures never report; the
      confirmation message depends on the path; both navigate home. */
  datatype SubmitOutcome = SubmitOutcome(loading: bool, message: string, redirect: string)

  const OnlineMessage := "Payment processed successfully!"
  const CashMessage := "Order placed successfully! You will receive a confirmation email shortly."

  function RunPayment(call: PaymentCall): (o: SubmitOutcome)
    ensures o.loading && o.redirect == "/"
    ensures o.message == OnlineMessage <==> call.OnlinePayment?
    ensures call.CashPayment? ==> o.message == CashMessage
  {
    match call
    case OnlinePayment(_) => SubmitOutcome(true, OnlineMessage, "/")
    case CashPayment(_) => SubmitOutcome(true, CashMessage, "/")
  }

  /** After either payment procedure the button stays disabled, so the same
      form cannot be submitted twice. */
  lemma NoSecondSubmit(form: CheckoutForm, paymentMethod: string, isEmail: string -> bool)
    requires Submit(form, paymentMethod, isEmail).Some?
    ensures SubmitDisabled(RunPayment(Submit(form, paymentMethod, isEmail).value).loading, form, isEmail)
  {
  }

  /** The order-summary panel: the totals and the button caption. */
  datatype Summary = Summary(totals: Totals, caption: string)

  function OrderSummary(subtotal: real, paymentMethod: string): Summary
  {
    Summary(TotalsOf(subtotal), if paymentMethod == "cash" then "Place Order (COD)" else "Pay Securely Now")
  }

  /** The payment method changes the caption only, never the money; and for
      the two values the radio buttons set, caption and procedure agree. */
  lemma PaymentMethodOnlyChangesCaption(subtotal: real, m1: string, m2: string,
                                        form: CheckoutForm, isEmail: string -> bool)
    ensures OrderSummary(subtotal, m1).totals == OrderSummary(subtotal, m2).totals
    ensures FormValid(form, isEmail) && (m1 == "cash" || m1 == "online") ==>
      (OrderSummary(subtotal, m1).caption == "Place Order (COD)" <==>
       Submit(form, m1, isEmail).value.CashPayment?)
  {
  }
}

=== FILE: images.dfy ===
/** How the admin form's images are written to and read back from the
    `product_images` table. The main image is stored with display order 0 and
    the additional images with display orders 1, 2, ... in list order; reading
    the rows back in display order and splitting them recovers the form. */
module ProductImages {
  import opened Wrappers
  import opened Seqs
  import opened Records
  import AdminLists

  /** The columns of a `product_images` row besides its key. */
  datatype ImageEntry = ImageEntry(displayOrder: int, altText: string)

  /** One product's rows. `(product_id, image_url)` is the table's conflict
      key, so within a product the URL identifies the row. */
  type ImageTable = map<string, ImageEntry>

  /** The image part of the product form. */
  datatype ImageForm = ImageForm(mainUrl: string, additional: seq<string>)

  /** The rows inserted for the additional images: the image at index `i`
      gets display order `i + 1`. */
  function AdditionalRows(productId: string, urls: seq<string>, title: string): (rows: seq<ImageRow>)
    ensures |rows| == |urls|
    ensures forall i :: 0 <= i < |rows| ==>
              rows[i].imageUrl == urls[i] && rows[i].displayOrder == i + 1 &&
              rows[i].productId == productId && rows[i].altText == title
  {
    seq(|urls|, i requires 0 <= i < |urls| => ImageRow(productId, urls[i], i + 1, title))
  }

  /** The row upserted for the main image. */
  function MainRow(productId: string, url: string, title: string): ImageRow {
    ImageRow(productId, url, 0, title)
  }

  /** The entries inserted for the additional images, keyed by URL. */
  function InsertedEntries(urls: seq<string>, title: string): (m: ImageTable)
    requires Distinct(urls)
    ensures forall u :: u in m <==> u in urls
    ensures forall j :: 0 <= j < |urls| ==> urls[j] in m && m[urls[j]] == ImageEntry(j + 1, title)
  {
    map j | 0 <= j < |urls| :: urls[j] := ImageEntry(j + 1, title)
  }

  /** What `handleProductImages` leaves in the product's rows. Each call
      commits on its own: when the insert is rejected, the delete before it
      has already happened and the upsert after it never runs, so `left` is
      what the delete kept. */
  datatype StoreResult = Stored(left: ImageTable) | InsertFailed(left: ImageTable)

  /** `handleProductImages` on the product's rows: delete every row whose URL
      differs from the main URL, insert the additional rows (the insert fails
      on a URL already present or repeated in the batch), then upsert the main
      row when there is a main URL. */
  function StoreImages(table: ImageTable, form: ImageForm, title: string): (r: StoreResult)
    ensures r.Stored? <==> (Distinct(form.additional) && !(form.mainUrl in table && form.mainUrl in form.additional))
    ensures r.Stored? ==> forall u :: u in r.left <==>
              u in form.additional || (u == form.mainUrl && (u != [] || u in table))
    ensures r.Stored? && form.mainUrl != [] ==> r.left[form.mainUrl] == ImageEntry(0, title)
    ensures r.Stored? ==> forall j :: 0 <= j < |form.additional| && (form.additional[j] != form.mainUrl || form.mainUrl == []) ==>
              r.left[form.additional[j]] == ImageEntry(j + 1, title)
    ensures r.Stored? && form.mainUrl == [] && [] in table ==> r.left[[]] == table[[]]
    ensures r.InsertFailed? ==> forall u :: u in r.left <==> u == form.mainUrl && u in table
    ensures r.InsertFailed? && form.mainUrl in table ==> r.left[form.mainUrl] == table[form.mainUrl]
  {
    var main := form.mainUrl;
    var kept: ImageTable := if main in table then map[main := table[main]] else map[];
    if !Distinct(form.additional) || (main in table && main in form.additional) then InsertFailed(kept)
    else
      var inserted := kept + InsertedEntries(form.additional, title);
      if main != [] then Stored(inserted[main := ImageEntry(0, title)]) else Stored(inserted)
  }

  /** Row `row` is the table's row for its URL. */
  predicate RowOf(row: ImageRow, productId: string, table: ImageTable) {
    row.imageUrl in table && row.productId == productId &&
    table[row.imageUrl] == ImageEntry(row.displayOrder, row.altText)
  }

  /** Some row of `rows` has URL `u`. */
  predicate Listed(rows: seq<ImageRow>, u: string) {
    exists i :: 0 <= i < |rows| && rows[i].imageUrl == u
  }

  predicate OrderedByDisplay(rows: seq<ImageRow>) {
    forall i, j :: 0 <= i < j < |rows| ==> rows[i].displayOrder <= rows[j].displayOrder
  }

  /** `rows` lists every row of the table exactly once, in non-decreasing
      display order, as the select ordered by `display_order` returns them. */
  predicate SortedListing(rows: seq<ImageRow>, productId: string, table: ImageTable) {
    && (forall i :: 0 <= i < |rows| ==> RowOf(rows[i], productId, table))
    && (forall u :: u in table ==> Listed(rows, u))
    && Distinct(Urls(rows))
    && OrderedByDisplay(rows)
  }

  /** No two rows share a display order. */
  predicate DistinctOrders(table: ImageTable) {
    forall u, v :: u in table && v in table && u != v ==> table[u].displayOrder != table[v].displayOrder
  }

  lemma ListedInTail(rows: seq<ImageRow>, u: string)
    requires Listed(rows, u) && rows[0].imageUrl != u
    ensures Listed(rows[1..], u)
  {
    var k :| 0 <= k < |rows| && rows[k].imageUrl == u;
    assert rows[1..][k - 1].imageUrl == u;
  }

  /** Without its first row, a listing lists the rest of the table. */
  lemma ListingTail(rows: seq<ImageRow>, productId: string, table: ImageTable)
    requires rows != [] && SortedListing(rows, productId, table)
    ensures SortedListing(rows[1..], productId, table - {rows[0].imageUrl})
  {
    var u := rows[0].imageUrl;
    var rest := table - {u};
    forall i | 0 <= i < |rows[1..]|
      ensures RowOf(rows[1..][i], productId, rest)
    {
      assert rows[1..][i] == rows[i + 1];
      assert Urls(rows)[0] != Urls(rows)[i + 1];
    }
    forall w | w in rest
      ensures Listed(rows[1..], w)
    {
      ListedInTail(rows, w);
    }
    assert Urls(rows[1..]) == Urls(rows)[1..];
  }

  /** The first row of a listing carries the least display order of the
      table. */
  lemma HeadIsLeast(rows: seq<ImageRow>, productId: string, table: ImageTable)
    requires rows != [] && SortedListing(rows, productId, table)
    ensures forall u :: u in table ==> rows[0].displayOrder <= table[u].displayOrder
  {
    forall u | u in table
      ensures rows[0].displayOrder <= table[u].displayOrder
    {
      assert Listed(rows, u);
      var k :| 0 <= k < |rows| && rows[k].imageUrl == u;
      assert RowOf(rows[k], productId, table);
      if k > 0 {
        assert OrderedByDisplay(rows);
      }
    }
  }

  /** A listing is empty exactly when the table is. */
  lemma EmptyListing(rows: seq<ImageRow>, productId: string, table: ImageTable)
    requires SortedListing(rows, productId, table)
    ensures rows == [] <==> table == map[]
  {
    if rows != [] {
      assert RowOf(rows[0], productId, table);
    } else {
      assert forall u :: !Listed(rows, u);
    }
  }

  /** Two listings of a table with distinct display orders start with the
      same row. */
  lemma HeadsAgree(a: seq<ImageRow>, b: seq<ImageRow>, productId: string, table: ImageTable)
    requires a != [] && SortedListing(a, productId, table)
    requires b != [] && SortedListing(b, productId, table)
    requires DistinctOrders(table)
    ensures a[0] == b[0]
  {
    HeadIsLeast(a, productId, table);
    HeadIsLeast(b, productId, table);
    assert RowOf(a[0], productId, table) && RowOf(b[0], productId, table);
    assert a[0].imageUrl == b[0].imageUrl;
  }

  /** When display orders are distinct, the ordered select has only one
      possible answer. */
  lemma {:induction false} SortedListingUnique(a: seq<ImageRow>, b: seq<ImageRow>, productId: string, table: ImageTable)
    requires SortedListing(a, productId, table) && SortedListing(b, productId, table)
    requires DistinctOrders(table)
    ensures a == b
    decreases |a|
  {
    if a == [] || b == [] {
      EmptyListing(a, productId, table);
      EmptyListing(b, productId, table);
    } else {
      HeadsAgree(a, b, productId, table);
      ListingTail(a, productId, table);
      ListingTail(b, productId, table);
      SortedListingUnique(a[1..], b[1..], productId, table - {a[0].imageUrl});
    }
  }

  /** The rows of a stored form in display order: the main row first (when
      there is a main URL), then the additional rows. */
  function Canonical(productId: string, form: ImageForm, title: string): seq<ImageRow> {
    (if form.mainUrl != [] then [MainRow(productId, form.mainUrl, title)] else []) +
    AdditionalRows(productId, form.additional, title)
  }


  /** The first row with display order 0, as `find` returns it. */
  function FindMain(rows: seq<ImageRow>): (r: Option<ImageRow>)
    ensures r.Some? ==> r.value.displayOrder == 0
    ensures r.Some? ==> exists k :: 0 <= k < |rows| && rows[k] == r.value &&
                          (forall i :: 0 <= i < k ==> rows[i].displayOrder != 0)
    ensures r.None? ==> forall i :: 0 <= i < |rows| ==> rows[i].displayOrder != 0
    decreases |rows|
  {
    if rows == [] then None
    else if rows[0].displayOrder == 0 then Some(rows[0])
    else FindMain(rows[1..])
  }

  function Urls(rows: seq<ImageRow>): (urls: seq<string>)
    ensures |urls| == |rows|
    ensures forall i :: 0 <= i < |rows| ==> urls[i] == rows[i].imageUrl
  {
    seq(|rows|, i requires 0 <= i < |rows| => rows[i].imageUrl)
  }

  /** The URLs of a subsequence of rows are a subsequence of their URLs. */
  lemma {:induction false} UrlsKeepSubsequence(a: seq<ImageRow>, b: seq<ImageRow>)
    requires IsSubsequence(a, b)
    ensures IsSubsequence(Urls(a), Urls(b))
    decreases |b|
  {
    if a != [] {
      assert Urls(a)[1..] == Urls(a[1..]);
      assert Urls(b)[1..] == Urls(b[1..]);
      if a[0] == b[0] && IsSubsequence(a[1..], b[1..]) {
        UrlsKeepSubsequence(a[1..], b[1..]);
      } else {
        UrlsKeepSubsequence(a, b[1..]);
      }
    }
  }

  /** A row listed among the additional images. */
  predicate IsAdditionalRow(row: ImageRow) {
    row.displayOrder > 0
  }

  /** The URLs of the rows kept by the additional-image filter are exactly
      the URLs of the rows with a positive display order, in row order. */
  lemma AdditionalUrls(rows: seq<ImageRow>, positive: seq<ImageRow>)
    requires forall i :: 0 <= i < |positive| ==> positive[i] in rows && IsAdditionalRow(positive[i])
    requires forall i :: 0 <= i < |rows| && IsAdditionalRow(rows[i]) ==> rows[i] in positive
    requires IsSubsequence(positive, rows)
    ensures IsSubsequence(Urls(positive), Urls(rows))
    ensures forall i :: 0 <= i < |rows| && IsAdditionalRow(rows[i]) ==> rows[i].imageUrl in Urls(positive)
    ensures forall k :: 0 <= k < |positive| ==>
              exists i :: 0 <= i < |rows| && IsAdditionalRow(rows[i]) && rows[i].imageUrl == Urls(positive)[k]
  {
    UrlsKeepSubsequence(positive, rows);
    var urls := Urls(positive);
    forall i | 0 <= i < |rows| && IsAdditionalRow(rows[i])
      ensures rows[i].imageUrl in urls
    {
      var k :| 0 <= k < |positive| && positive[k] == rows[i];
      assert urls[k] == rows[i].imageUrl;
    }
    forall k | 0 <= k < |positive|
      ensures exists i :: 0 <= i < |rows| && IsAdditionalRow(rows[i]) && rows[i].imageUrl == urls[k]
    {
      var i :| 0 <= i < |rows| && rows[i] == positive[k];
      assert rows[i].imageUrl == urls[k];
    }
  }

  /** `handleEditProduct`: the main image is the URL of the first row with
      display order 0, falling back to the product's own `image_url` when
      there is no such row or its URL is empty; the additional images are the
      URLs of the rows with a positive display order, in row order. */
  function SplitImages(rows: seq<ImageRow>, productImageUrl: string): (f: ImageForm)
    ensures FindMain(rows).Some? && FindMain(rows).value.imageUrl != [] ==>
              f.mainUrl == FindMain(rows).value.imageUrl
    ensures FindMain(rows).None? || FindMain(rows).value.imageUrl == [] ==>
              f.mainUrl == productImageUrl
    ensures IsSubsequence(f.additional, Urls(rows))
    ensures forall i :: 0 <= i < |rows| && rows[i].displayOrder > 0 ==> rows[i].imageUrl in f.additional
    ensures forall k :: 0 <= k < |f.additional| ==>
              exists i :: 0 <= i < |rows| && rows[i].displayOrder > 0 && rows[i].imageUrl == f.additional[k]
  {
    var main := FindMain(rows);
    var mainUrl := if main.Some? && main.value.imageUrl != [] then main.value.imageUrl else productImageUrl;
    var positive := Filter(rows, IsAdditionalRow);
    AdditionalUrls(rows, positive);
    ImageForm(mainUrl, Urls(positive))
  }

  /** The additional-image filter keeps exactly the additional rows of the
      canonical listing. */
  lemma CanonicalAdditional(productId: string, form: ImageForm, title: string)
    ensures Filter(Canonical(productId, form, title), IsAdditionalRow) == AdditionalRows(productId, form.additional, title)
    ensures Urls(AdditionalRows(productId, form.additional, title)) == form.additional
  {
    var adds := AdditionalRows(productId, form.additional, title);
    var rows := Canonical(productId, form, title);
    FilterKeepsAll(adds, IsAdditionalRow);
    if form.mainUrl != [] {
      assert rows == [MainRow(productId, form.mainUrl, title)] + adds;
      assert rows[1..] == adds;
    } else {
      assert rows == adds;
    }
  }

  /** `find` picks the main row of the canonical listing, if there is one. */
  lemma CanonicalMain(productId: string, form: ImageForm, title: string)
    ensures FindMain(Canonical(productId, form, title)) ==
            if form.mainUrl != [] then Some(MainRow(productId, form.mainUrl, title)) else None
  {
    var rows := Canonical(productId, form, title);
    if form.mainUrl == [] {
      assert rows == AdditionalRows(productId, form.additional, title);
    }
  }

  /** Splitting the canonical rows gives the form back. */
  lemma SplitCanonical(productId: string, form: ImageForm, title: string, productImageUrl: string)
    ensures SplitImages(Canonical(productId, form, title), productImageUrl) ==
            ImageForm(if form.mainUrl != [] then form.mainUrl else productImageUrl, form.additional)
  {
    CanonicalAdditional(productId, form, title);
    CanonicalMain(productId, form, title);
  }

  /** The delete keeps the row whose URL is the main URL, and the upsert
      rewrites that row only when the main URL is non-empty. A row is
      therefore left over from before exactly when the form has no main
      image and the product already has a row with the empty URL (the
      inline edit of the additional-image list can store one). The main-image
      input is `required`, so the browser does not submit the form without a
      main URL and the case does not arise from the form. */
  predicate NoStaleMainRow(table: ImageTable, form: ImageForm) {
    form.mainUrl == [] ==> [] !in table
  }

  /** The form a product is saved with: the additional URLs are distinct and
      none of them is the main URL. */
  predicate WellFormedForm(form: ImageForm) {
    Distinct(form.additional) && form.mainUrl !in form.additional
  }

  /** The canonical rows carry the display orders 0, 1, ..., or 1, 2, ...
      when there is no main URL. */
  lemma CanonicalRows(productId: string, form: ImageForm, title: string)
    ensures var rows := Canonical(productId, form, title);
            var off := if form.mainUrl != [] then 1 else 0;
            |rows| == |form.additional| + off &&
            (form.mainUrl != [] ==> rows[0] == MainRow(productId, form.mainUrl, title)) &&
            forall k :: off <= k < |rows| ==> rows[k] == ImageRow(productId, form.additional[k - off], k - off + 1, title)
  {
  }

  /** A well-formed form always stores. */
  lemma WellFormedStores(table: ImageTable, form: ImageForm, title: string)
    requires WellFormedForm(form)
    ensures StoreImages(table, form, title).Stored?
  {
  }

  /** Where stored URL `u` came from and the display order it got: the
      main URL at 0, the additional URL at index `j` at `j + 1`. */
  predicate FromForm(form: ImageForm, title: string, stored: ImageTable, u: string) {
    && u in stored
    && (u == form.mainUrl ==> u != [] && stored[u] == ImageEntry(0, title))
    && (u != form.mainUrl ==>
          exists j :: 0 <= j < |form.additional| && form.additional[j] == u && stored[u] == ImageEntry(j + 1, title))
  }

  /** Without a left-over row, every stored URL comes from the form. */
  lemma StoredEntries(table: ImageTable, form: ImageForm, title: string, stored: ImageTable)
    requires NoStaleMainRow(table, form) && WellFormedForm(form)
    requires StoreImages(table, form, title) == Stored(stored)
    ensures forall u :: u in stored ==> FromForm(form, title, stored, u)
  {
    forall u | u in stored
      ensures FromForm(form, title, stored, u)
    {
      if u != form.mainUrl {
        var j :| 0 <= j < |form.additional| && form.additional[j] == u;
      }
    }
  }

  lemma CanonicalRowsAreStored(table: ImageTable, productId: string, form: ImageForm, title: string, stored: ImageTable)
    requires WellFormedForm(form)
    requires StoreImages(table, form, title) == Stored(stored)
    ensures forall k :: 0 <= k < |Canonical(productId, form, title)| ==>
              RowOf(Canonical(productId, form, title)[k], productId, stored)
  {
    var rows := Canonical(productId, form, title);
    var off := if form.mainUrl != [] then 1 else 0;
    CanonicalRows(productId, form, title);
    forall k | 0 <= k < |rows|
      ensures RowOf(rows[k], productId, stored)
    {
      if k >= off {
        assert form.additional[k - off] in form.additional;
      }
    }
  }

  lemma StoredRowsAreCanonical(productId: string, form: ImageForm, title: string, stored: ImageTable)
    requires forall u :: u in stored ==> FromForm(form, title, stored, u)
    ensures forall u :: u in stored ==> Listed(Canonical(productId, form, title), u)
  {
    var rows := Canonical(productId, form, title);
    var off := if form.mainUrl != [] then 1 else 0;
    CanonicalRows(productId, form, title);
    forall u | u in stored
      ensures Listed(rows, u)
    {
      assert FromForm(form, title, stored, u);
      if u == form.mainUrl {
        assert rows[0].imageUrl == u;
      } else {
        var j :| 0 <= j < |form.additional| && form.additional[j] == u;
        assert rows[j + off].imageUrl == u;
      }
    }
  }

  lemma CanonicalUrlsDistinct(productId: string, form: ImageForm, title: string)
    requires WellFormedForm(form)
    ensures Distinct(Urls(Canonical(productId, form, title)))
  {
    var rows := Canonical(productId, form, title);
    var off := if form.mainUrl != [] then 1 else 0;
    CanonicalRows(productId, form, title);
    forall i, j | 0 <= i < j < |rows|
      ensures Urls(rows)[i] != Urls(rows)[j]
    {
      if i < off {
        assert form.additional[j - off] in form.additional;
      }
    }
  }

  /** Two stored URLs never share a display order. */
  lemma StoredOrdersDiffer(form: ImageForm, title: string, stored: ImageTable, u: string, v: string)
    requires Distinct(form.additional)
    requires FromForm(form, title, stored, u) && FromForm(form, title, stored, v) && u != v
    ensures stored[u].displayOrder != stored[v].displayOrder
  {
    var adds := form.additional;
    if u != form.mainUrl && v != form.mainUrl {
      var j :| 0 <= j < |adds| && adds[j] == u && stored[u] == ImageEntry(j + 1, title);
      var k :| 0 <= k < |adds| && adds[k] == v && stored[v] == ImageEntry(k + 1, title);
    } else if u != form.mainUrl {
      var j :| 0 <= j < |adds| && adds[j] == u && stored[u] == ImageEntry(j + 1, title);
    } else {
      var k :| 0 <= k < |adds| && adds[k] == v && stored[v] == ImageEntry(k + 1, title);
    }
  }

  lemma StoredOrdersDistinct(form: ImageForm, title: string, stored: ImageTable)
    requires Distinct(form.additional)
    requires forall u :: u in stored ==> FromForm(form, title, stored, u)
    ensures DistinctOrders(stored)
  {
    forall u, v | u in stored && v in stored && u != v
      ensures stored[u].displayOrder != stored[v].displayOrder
    {
      StoredOrdersDiffer(form, title, stored, u, v);
    }
  }

  /** After the store, the table holds exactly the canonical rows, with
      distinct display orders. */
  lemma StoredTableListing(table: ImageTable, productId: string, form: ImageForm, title: string, stored: ImageTable)
    requires NoStaleMainRow(table, form) && WellFormedForm(form)
    requires StoreImages(table, form, title) == Stored(stored)
    ensures SortedListing(Canonical(productId, form, title), productId, stored)
    ensures DistinctOrders(stored)
  {
    CanonicalRowsAreStored(table, productId, form, title, stored);
    StoredEntries(table, form, title, stored);
    StoredRowsAreCanonical(productId, form, title, stored);
    CanonicalUrlsDistinct(productId, form, title);
    StoredOrdersDistinct(form, title, stored);
    CanonicalRows(productId, form, title);
  }

  /** The round trip of the admin form: unless a stale row is left over (see
      `NoStaleMainRow`), saving an image form with distinct additional URLs,
      none of them the main URL, and reading the rows back in display order
      yields the same main image (or the product's own URL when the form has
      none) and the same additional images, in order. */
  lemma ImagesRoundTrip(table: ImageTable, productId: string, form: ImageForm, title: string,
                        stored: ImageTable, fetched: seq<ImageRow>)
    requires NoStaleMainRow(table, form) && WellFormedForm(form)
    requires StoreImages(table, form, title) == Stored(stored)
    requires SortedListing(fetched, productId, stored)
    ensures SplitImages(fetched, form.mainUrl) == form
  {
    StoredTableListing(table, productId, form, title, stored);
    SortedListingUnique(fetched, Canonical(productId, form, title), productId, stored);
    SplitCanonical(productId, form, title, form.mainUrl);
  }

  /** The round trip for every form the browser submits: the main-image
      input is `required`, so the main URL is non-empty and no row is left
      over, whatever the product's rows were before. */
  lemma SubmittedFormRoundTrip(table: ImageTable, productId: string, form: ImageForm, title: string,
                               stored: ImageTable, fetched: seq<ImageRow>)
    requires form.mainUrl != [] && WellFormedForm(form)
    requires StoreImages(table, form, title) == Stored(stored)
    requires SortedListing(fetched, productId, stored)
    ensures SplitImages(fetched, form.mainUrl) == form
    ensures FindMain(fetched).Some? && FindMain(fetched).value == MainRow(productId, form.mainUrl, title)
  {
    ImagesRoundTrip(table, productId, form, title, stored, fetched);
    StoredTableListing(table, productId, form, title, stored);
    SortedListingUnique(fetched, Canonical(productId, form, title), productId, stored);
    CanonicalRows(productId, form, title);
  }

  /** The left-over row of `NoStaleMainRow` breaks the round trip: an
      empty-URL row at display order 1 survives a save with no main image and
      comes back as an extra additional image. */
  lemma StaleEmptyRowSurvives(productId: string, title: string, staleAlt: string)
    ensures StoreImages(map[[] := ImageEntry(1, staleAlt)], ImageForm([], ["b"]), title) ==
            Stored(map[[] := ImageEntry(1, staleAlt), "b" := ImageEntry(1, title)])
    ensures SplitImages([ImageRow(productId, [], 1, staleAlt), ImageRow(productId, "b", 1, title)], []) ==
            ImageForm([], [[], "b"])
  {
    var r := StoreImages(map[[] := ImageEntry(1, staleAlt)], ImageForm([], ["b"]), title);
    var stored := map[[] := ImageEntry(1, staleAlt), "b" := ImageEntry(1, title)];
    assert Distinct(["b"]);
    assert r.left.Keys == stored.Keys;
    assert r.left == stored;
    var rows := [ImageRow(productId, [], 1, staleAlt), ImageRow(productId, "b", 1, title)];
    FilterKeepsAll(rows, IsAdditionalRow);
    assert FindMain(rows[1..]) == None;
    assert Urls(rows) == [[], "b"];
  }

  /** The inline edit can repeat another additional URL; the insert then
      fails on the repeated key after the delete has run, so every row of the
      product except the main URL's is gone and no new row is written. */
  lemma DuplicateEditFailsStore(table: ImageTable, mainUrl: string, images: seq<string>,
                                i: nat, j: nat, title: string)
    requires i < |images| && j < |images| && i != j
    ensures var r := StoreImages(table, ImageForm(mainUrl, AdminLists.EditAdditionalImage(images, i, images[j])), title);
            r == InsertFailed(if mainUrl in table then map[mainUrl := table[mainUrl]] else map[])
  {
    var edited := AdminLists.EditAdditionalImage(images, i, images[j]);
    assert edited[i] == edited[j];
  }

  /** A rejected save loses the product's earlier additional images: with
      rows "a" and "m" and a form with main image "m" whose additional list
      repeats "b", only the main row is left. */
  lemma RejectedSaveDropsOldImages(e: ImageEntry, title: string)
    ensures StoreImages(map["a" := e, "m" := e], ImageForm("m", ["b", "b"]), title) == InsertFailed(map["m" := e])
  {
    assert !Distinct(["b", "b"]) by {
      assert ["b", "b"][0] == ["b", "b"][1];
    }
  }

  /** A main URL that is also listed as an additional image on a product
      without that row yet is inserted at its list position and then moved to
      display order 0 by the upsert, so it drops out of the additional list. */
  lemma MainAlsoAdditional(productId: string, url: string, title: string)
    requires url != []
    ensures StoreImages(map[], ImageForm(url, [url]), title) == Stored(map[url := ImageEntry(0, title)])
  {
    var r := StoreImages(map[], ImageForm(url, [url]), title);
    assert Distinct([url]);
    assert r.Stored?;
    assert r.left.Keys == {url};
    assert r.left[url] == ImageEntry(0, title);
    assert r.left == map[url := ImageEntry(0, title)];
  }
}

=== FILE: jstext.dfy ===
/** The JavaScript string built-ins the components rely on: the `\s` class of
    regular expressions (which is also what `String.prototype.trim` strips),
    `trim`, `toLowerCase` restricted to ASCII, and `includes`. */
module JsText {

  /** A member of JavaScript's `\s`: the WhiteSpace and LineTerminator code
      points of ECMAScript (tab, line feed, vertical tab, form feed, carriage
      return, space, no-break space, the Unicode space separators, line and
      paragraph separators, and the byte-order mark). */
  predicate IsJsWhitespace(c: char) {
    c == '\t' || c == '\n' || c == '\U{000B}' || c == '\U{000C}' || c == '\r' || c == ' ' ||
    c == '\U{00A0}' || c == '\U{1680}' || ('\U{2000}' <= c <= '\U{200A}') ||
    c == '\U{2028}' || c == '\U{2029}' || c == '\U{202F}' || c == '\U{205F}' ||
    c == '\U{3000}' || c == '\U{FEFF}'
  }

  predicate IsBlank(s: string) {
    forall i :: 0 <= i < |s| ==> IsJsWhitespace(s[i])
  }

  /** The number of whitespace characters at the front of `s`. */
  function LeadingSpace(s: string): (n: nat)
    ensures n <= |s|
    ensures forall i :: 0 <= i < n ==> IsJsWhitespace(s[i])
    ensures n < |s| ==> !IsJsWhitespace(s[n])
    decreases |s|
  {
    if s == [] || !IsJsWhitespace(s[0]) then 0 else 1 + LeadingSpace(s[1..])
  }

  /** The number of whitespace characters at the back of `s`. */
  function TrailingSpace(s: string): (n: nat)
    ensures n <= |s|
    ensures forall i :: |s| - n <= i < |s| ==> IsJsWhitespace(s[i])
    ensures n < |s| ==> !IsJsWhitespace(s[|s| - 1 - n])
    decreases |s|
  {
    if s == [] || !IsJsWhitespace(s[|s| - 1]) then 0 else 1 + TrailingSpace(s[..|s| - 1])
  }

  /** `s.trim()`. */
  function Trim(s: string): (r: string)
    ensures r == [] <==> IsBlank(s)
    ensures r != [] ==> !IsJsWhitespace(r[0]) && !IsJsWhitespace(r[|r| - 1])
    ensures |r| <= |s|
  {
    var a := LeadingSpace(s);
    if a == |s| then [] else s[a..|s| - TrailingSpace(s)]
  }

  /** Trimming only strips whitespace: the result sits inside `s` with nothing
      but whitespace around it. */
  lemma TrimStripsOnlyWhitespace(s: string)
    ensures exists a :: 0 <= a <= |s| - |Trim(s)| && s[a..a + |Trim(s)|] == Trim(s) &&
                        IsBlank(s[..a]) && IsBlank(s[a + |Trim(s)|..])
  {
    var a := LeadingSpace(s);
    if a == |s| {
      assert s[..0] == [] && s[0..0] == [];
      assert IsBlank(s[0..]) by { assert s[0..] == s; }
    } else {
      var b := |s| - TrailingSpace(s);
      assert a < b by {
        assert !IsJsWhitespace(s[a]);
      }
      assert s[a..a + |Trim(s)|] == Trim(s);
      assert IsBlank(s[..a]);
      assert IsBlank(s[b..]);
    }
  }

  /** Text without whitespace at either end is left alone by `trim`. */
  lemma TrimOfTrimmed(s: string)
    requires s == [] || (!IsJsWhitespace(s[0]) && !IsJsWhitespace(s[|s| - 1]))
    ensures Trim(s) == s
  {
  }

  /** `trim` is idempotent. */
  lemma TrimIdempotent(s: string)
    ensures Trim(Trim(s)) == Trim(s)
  {
    TrimOfTrimmed(Trim(s));
  }

  /** `c.toLowerCase()` for an ASCII letter; every other character is kept. */
  function LowerChar(c: char): char {
    if 'A' <= c <= 'Z' then (c as int + 32) as char else c
  }

  /** `s.toLowerCase()`, character by character. */
  function Lower(s: string): (r: string)
    ensures |r| == |s|
    ensures forall i :: 0 <= i < |s| ==> r[i] == LowerChar(s[i])
  {
    seq(|s|, i requires 0 <= i < |s| => LowerChar(s[i]))
  }

  lemma LowerIdempotent(s: string)
    ensures Lower(Lower(s)) == Lower(s)
  {
  }

  /** `s.includes(t)`: `t` occurs in `s` at some position. */
  predicate Includes(s: string, t: string)
    decreases |s|
  {
    t <= s || (s != [] && Includes(s[1..], t))
  }

  /** An occurrence found by `Includes` is at some position of `s`. */
  lemma {:induction false} IncludesHasPosition(s: string, t: string)
    requires Includes(s, t)
    ensures exists i :: 0 <= i <= |s| - |t| && t <= s[i..]
    decreases |s|
  {
    if t <= s {
      assert s[0..] == s;
    } else {
      IncludesHasPosition(s[1..], t);
      var i :| 0 <= i <= |s[1..]| - |t| && t <= s[1..][i..];
      assert s[1..][i..] == s[i + 1..];
    }
  }

  /** An occurrence at any position is found by `Includes`. */
  lemma {:induction false} PositionGivesIncludes(s: string, t: string, i: nat)
    requires i <= |s| - |t| && t <= s[i..]
    ensures Includes(s, t)
    decreases i
  {
    if i == 0 {
      assert s[0..] == s;
    } else {
      assert s[1..][i - 1..] == s[i..];
      PositionGivesIncludes(s[1..], t, i - 1);
    }
  }

  lemma {:induction false} IncludesEmpty(s: string)
    ensures Includes(s, [])
  {
  }

  lemma {:induction false} IncludesOfPrefix(s: string, p: string, t: string)
    requires p <= s && Includes(p, t)
    ensures Includes(s, t)
    decreases |p|
  {
    if t <= p {
    } else {
      assert p[1..] <= s[1..];
      IncludesOfPrefix(s[1..], p[1..], t);
    }
  }

  /** An occurrence of an occurrence is an occurrence. */
  lemma {:induction false} IncludesTransitive(a: string, b: string, c: string)
    requires Includes(a, b) && Includes(b, c)
    ensures Includes(a, c)
    decreases |a|
  {
    if b <= a {
      IncludesOfPrefix(a, b, c);
    } else {
      IncludesTransitive(a[1..], b, c);
    }
  }

  /** Lower-casing both sides keeps an occurrence. */
  lemma {:induction false} LowerKeepsIncludes(s: string, t: string)
    requires Includes(s, t)
    ensures Includes(Lower(s), Lower(t))
    decreases |s|
  {
    if t <= s {
      assert Lower(t) <= Lower(s);
    } else {
      assert Lower(s)[1..] == Lower(s[1..]);
      LowerKeepsIncludes(s[1..], t);
    }
  }
}

=== FILE: login.dfy ===
/** The demo sign-in: any non-empty email and password are accepted, the demo
    credentials included, and produce a time-stamped token; an empty field
    produces an error. Nothing is checked against an account. */
module Login {
  import opened Wrappers

  const DemoEmail := "demo@sportswear.com"
  const DemoPassword := "password123"
  const TokenPrefix := "demo_user_token_"
  const MissingFields := "Please enter both email and password"
  const LoginFailed := "Login failed. Please try again."

  /** The form's state, the token held by the session context, the token in
      `localStorage`, and the navigation requested. */
  datatype LoginState = LoginState(
    loading: bool, errorMessage: string,
    userToken: Option<string>, storedToken: Option<string>, redirect: Option<string>)

  /** `String(n)` for a natural number: its decimal digits. */
  function Decimal(n: nat): (s: string)
    ensures |s| >= 1
    ensures forall i :: 0 <= i < |s| ==> '0' <= s[i] <= '9'
    decreases n
  {
    var digit := ['0' + (n % 10) as char];
    if n < 10 then digit else Decimal(n / 10) + digit
  }

  /** The number a string of decimal digits denotes. */
  function DigitsValue(s: string): nat
    requires forall i :: 0 <= i < |s| ==> '0' <= s[i] <= '9'
  {
    if s == [] then 0 else 10 * DigitsValue(s[..|s| - 1]) + (s[|s| - 1] - '0') as nat
  }

  /** The decimal digits read back as the number they came from. */
  lemma {:induction false} DecimalRoundTrip(n: nat)
    ensures DigitsValue(Decimal(n)) == n
    decreases n
  {
    var s := Decimal(n);
    if n >= 10 {
      DecimalRoundTrip(n / 10);
      assert s[..|s| - 1] == Decimal(n / 10);
    }
  }

  /** `'demo_user_token_' + Date.now()`, with the clock reading `now`. */
  function DemoToken(now: nat): (t: string)
    ensures TokenPrefix <= t
    ensures |t| > |TokenPrefix|
  {
    TokenPrefix + Decimal(now)
  }

  /** `signIn`: the error is cleared first; when both fields are non-empty the
      token is set in the session, then written to storage, and the shopper
      is sent home; otherwise the missing-fields error is set; loading ends
      either way. `storageWrites` says whether `localStorage.setItem`
      succeeds: when it throws (storage full or blocked) the session already
      holds the token, nothing is stored, no navigation happens and the
      catch shows the generic failure message. */
  function SignIn(st: LoginState, email: string, password: string, now: nat, storageWrites: bool): (r: LoginState)
    ensures !r.loading
    ensures email != [] && password != [] ==> r.userToken == Some(DemoToken(now))
    ensures email != [] && password != [] && storageWrites ==>
              r.storedToken == r.userToken && r.redirect == Some("/") && r.errorMessage == []
    ensures email != [] && password != [] && !storageWrites ==>
              r.errorMessage == LoginFailed && r.storedToken == st.storedToken && r.redirect == st.redirect
    ensures email == [] || password == [] ==>
              r.errorMessage == MissingFields && r.userToken == st.userToken &&
              r.storedToken == st.storedToken && r.redirect == st.redirect
  {
    var cleared := st.(loading := true, errorMessage := "");
    var token := DemoToken(now);
    var after :=
      if email == DemoEmail && password == DemoPassword then
        Accept(cleared, token, storageWrites)
      else if email != [] && password != [] then
        Accept(cleared, token, storageWrites)
      else
        cleared.(errorMessage := MissingFields);
    after.(loading := false)
  }

  /** The accepting branch: `setUserToken`, `localStorage.setItem`,
      `navigate('/')`, with the catch taking over when the write throws. */
  function Accept(st: LoginState, token: string, storageWrites: bool): LoginState {
    var session := st.(userToken := Some(token));
    if storageWrites then session.(storedToken := Some(token), redirect := Some("/"))
    else session.(errorMessage := LoginFailed)
  }

  /** The demo credentials buy nothing: any other non-empty pair signs in the
      same way. */
  lemma DemoCredentialsNotSpecial(st: LoginState, email: string, password: string, now: nat, storageWrites: bool)
    requires email != [] && password != []
    ensures SignIn(st, email, password, now, storageWrites) == SignIn(st, DemoEmail, DemoPassword, now, storageWrites)
  {
  }

  /** A failed storage write leaves the session signed in while storage,
      which the product-card handlers read, holds no token: after signing in
      from a fresh page the shopper is shown the failure and the handlers
      still send them to the login page. */
  lemma FailedWriteSplitsSession(email: string, password: string, now: nat)
    requires email != [] && password != []
    ensures var r := SignIn(LoginState(false, "", None, None, None), email, password, now, false);
            r.userToken.Some? && r.storedToken.None? && r.errorMessage == LoginFailed && r.redirect.None?
  {
  }

  /** The session token carries the demo prefix followed by the clock
      reading, and it is the token stored when the write succeeds. */
  lemma TokenCarriesClock(st: LoginState, email: string, password: string, now: nat, storageWrites: bool)
    requires email != [] && password != []
    ensures var t := SignIn(st, email, password, now, storageWrites).userToken.value;
            TokenPrefix <= t && DigitsValue(t[|TokenPrefix|..]) == now
    ensures storageWrites ==> SignIn(st, email, password, now, storageWrites).storedToken ==
                              SignIn(st, email, password, now, storageWrites).userToken
  {
    var t := SignIn(st, email, password, now, storageWrites).userToken.value;
    assert t[|TokenPrefix|..] == Decimal(now);
    DecimalRoundTrip(now);
  }
}

=== FILE: order_details.dfy ===
/** The admin's order-details page: the totals panel, the status timeline,
    the status badge colour, the local status update and the order-source
    label. */
module OrderDetailsView {
  import opened Wrappers
  import opened Seqs
  import opened Records
  import Checkout

  function ItemAmount(item: OrderItem): real {
    item.price * item.quantity as real
  }

  datatype OrderTotals = OrderTotals(subtotal: real, shipping: real, tax: real, total: real)

  /** `calculateOrderTotals`: the subtotal is recomputed from the items; the
      shipping, tax and total are the stored columns, 0 when absent (or while
      no order is loaded). */
  method CalculateOrderTotals(order: Option<Order>, items: seq<OrderItem>) returns (t: OrderTotals)
    ensures t.subtotal == SumOf(items, ItemAmount)
    ensures order.None? ==> t.shipping == 0.0 && t.tax == 0.0 && t.total == 0.0
    ensures order.Some? ==> t.shipping == order.value.shippingCost.GetOr(0.0)
    ensures order.Some? ==> t.tax == order.value.taxAmount.GetOr(0.0)
    ensures order.Some? ==> t.total == order.value.totalAmount.GetOr(0.0)
  {
    var subtotal := Reduce(items, ItemAmount);
    match order
    case None =>
      t := OrderTotals(subtotal, 0.0, 0.0, 0.0);
    case Some(o) =>
      t := OrderTotals(subtotal, o.shippingCost.GetOr(0.0), o.taxAmount.GetOr(0.0), o.totalAmount.GetOr(0.0));
  }

  /** The items of an order placed from a cart: one item per line, same price,
      quantity equal to the count. */
  predicate ItemsOfCart(items: seq<OrderItem>, cart: seq<Checkout.CartLine>) {
    |items| == |cart| &&
    forall i :: 0 <= i < |items| ==> items[i].price == cart[i].price && items[i].quantity == cart[i].count
  }

  /** For an order whose columns were filled from the checkout totals of its
      cart, the page shows exactly those totals. */
  lemma PageAgreesWithCheckout(order: Order, items: seq<OrderItem>, cart: seq<Checkout.CartLine>)
    requires ItemsOfCart(items, cart)
    requires var t := Checkout.TotalsOf(Checkout.Subtotal(cart));
             order.shippingCost == Some(t.shipping) && order.taxAmount == Some(t.tax) &&
             order.totalAmount == Some(t.total)
    ensures var t := Checkout.TotalsOf(Checkout.Subtotal(cart));
            SumOf(items, ItemAmount) == t.subtotal &&
            order.totalAmount.GetOr(0.0) == SumOf(items, ItemAmount) + order.shippingCost.GetOr(0.0) + order.taxAmount.GetOr(0.0)
  {
    ItemsSumLikeCart(items, cart);
  }

  lemma {:induction false} ItemsSumLikeCart(items: seq<OrderItem>, cart: seq<Checkout.CartLine>)
    requires ItemsOfCart(items, cart)
    ensures SumOf(items, ItemAmount) == Checkout.Subtotal(cart)
    decreases |items|
  {
    if items != [] {
      assert ItemsOfCart(items[1..], cart[1..]);
      ItemsSumLikeCart(items[1..], cart[1..]);
    }
  }

  /** The stored total is shown as stored: an order whose total column
      disagrees with its items keeps showing the stored figure. */
  lemma StoredTotalIsNotRecomputed()
    ensures var o := Order("o1", "ORD-1", None, "", "", "Pending", None, Some(15.0), Some(1.0), Some(5.0), "cash");
            var items := [OrderItem("i1", "Training Shorts", 1, 10.0)];
            SumOf(items, ItemAmount) == 10.0 &&
            o.totalAmount.GetOr(0.0) == 5.0 &&
            o.totalAmount.GetOr(0.0) != SumOf(items, ItemAmount) + o.shippingCost.GetOr(0.0) + o.taxAmount.GetOr(0.0)
  {
    var items := [OrderItem("i1", "Training Shorts", 1, 10.0)];
    assert items[1..] == [];
  }

  // ---------------------------------------------------------------------
  // Status
  // ---------------------------------------------------------------------

  /** The timeline's steps, in order. */
  const StatusOrder: seq<string> := ["Pending", "Processing", "Shipped", "Delivered"]

  /** `xs.indexOf(x)`: the first position of `x`, or -1. */
  function IndexOf(xs: seq<string>, x: string): (k: int)
    ensures -1 <= k < |xs|
    ensures k == -1 <==> x !in xs
    ensures k >= 0 ==> xs[k] == x && forall i :: 0 <= i < k ==> xs[i] != x
    decreases |xs|
  {
    if xs == [] then -1
    else if xs[0] == x then 0
    else
      var k := IndexOf(xs[1..], x);
      if k == -1 then -1 else k + 1
  }

  /** `isActive` of each timeline step: the step's index is at most the
      current status's index. */
  function Timeline(status: string): (active: seq<bool>)
    ensures |active| == |StatusOrder|
    ensures forall k :: 0 <= k < |StatusOrder| && status == StatusOrder[k] ==>
              forall i :: 0 <= i < |active| ==> (active[i] <==> i <= k)
    ensures status !in StatusOrder ==> forall i :: 0 <= i < |active| ==> !active[i]
  {
    seq(|StatusOrder|, i requires 0 <= i < |StatusOrder| =>
      IndexOf(StatusOrder, StatusOrder[i]) <= IndexOf(StatusOrder, status))
  }

  /** The active steps always form a prefix of the timeline. */
  lemma TimelineIsPrefix(status: string)
    ensures forall i, j :: 0 <= i < j < |Timeline(status)| && Timeline(status)[j] ==> Timeline(status)[i]
  {
    if status !in StatusOrder {
    } else {
      var k := IndexOf(StatusOrder, status);
      assert status == StatusOrder[k];
    }
  }

  /** A cancelled order lights no step. */
  lemma CancelledLightsNothing()
    ensures forall i :: 0 <= i < |Timeline("Cancelled")| ==> !Timeline("Cancelled")[i]
  {
    assert "Cancelled" !in StatusOrder;
  }

  const PendingColor := "bg-yellow-100 text-yellow-800 border-yellow-200"
  const ProcessingColor := "bg-blue-100 text-blue-800 border-blue-200"
  const ShippedColor := "bg-purple-100 text-purple-800 border-purple-200"
  const DeliveredColor := "bg-green-100 text-green-800 border-green-200"
  const CancelledColor := "bg-red-100 text-red-800 border-red-200"
  const DefaultColor := "bg-gray-100 text-gray-800 border-gray-200"

  const KnownStatuses: seq<string> := ["Pending", "Processing", "Shipped", "Delivered", "Cancelled"]

  /** `getStatusColor`. */
  function StatusColor(status: string): string {
    if status == "Pending" then PendingColor
    else if status == "Processing" then ProcessingColor
    else if status == "Shipped" then ShippedColor
    else if status == "Delivered" then DeliveredColor
    else if status == "Cancelled" then CancelledColor
    else DefaultColor
  }

  /** Each known status has its own colour, none of them the default; every
      other value gets the gray default. */
  lemma StatusColorsDistinct(s1: string, s2: string)
    ensures s1 in KnownStatuses && s2 in KnownStatuses && s1 != s2 ==> StatusColor(s1) != StatusColor(s2)
    ensures s1 in KnownStatuses ==> StatusColor(s1) != DefaultColor
    ensures s1 !in KnownStatuses ==> StatusColor(s1) == DefaultColor
  {
  }

  /** `updateOrderStatus` on the page's own copy: only the status changes. */
  function SetStatus(order: Order, status: string): (r: Order)
    ensures r.status == status
    ensures r.(status := order.status) == order
  {
    order.(status := status)
  }

  /** The "Order Source" label: a registered user when the order has a
      (non-empty) user id, a guest otherwise. */
  function OrderSource(order: Order): (caption: string)
    ensures caption == "Registered User" <==> order.userId.Some? && order.userId.value != []
    ensures caption != "Registered User" ==> caption == "Guest Checkout"
  {
    if order.userId.Some? && order.userId.value != [] then "Registered User" else "Guest Checkout"
  }

  /** The label depends on the user id alone: two orders with the same user
      id get the same label whatever their other columns. */
  lemma OrderSourceDependsOnUserOnly(a: Order, b: Order)
    requires a.userId == b.userId
    ensures OrderSource(a) == OrderSource(b)
  {
  }
}

=== FILE: product_details.dfy ===
/** The product-details page: selecting the product named in the URL from the
    page's catalogue, and the thumbnail strip. */
module ProductDetailsView {
  import opened Wrappers

  datatype DetailProduct = DetailProduct(id: string, title: string, imageCover: string, images: seq<string>, price: real)

  /** The page's state: the selected product (`{}` before any selection) and
      the image shown large. */
  datatype DetailView = DetailView(product: Option<DetailProduct>, mainImage: string)

  const InitialView := DetailView(None, "")

  /** The catalogue is keyed by product id. */
  predicate KeyedById(catalogue: map<string, DetailProduct>) {
    forall k :: k in catalogue ==> catalogue[k].id == k
  }

  /** The effect that runs when the URL id changes: a known id selects its
      product and shows its cover image; an unknown id leaves the state as it
      was. */
  function SelectProduct(view: DetailView, catalogue: map<string, DetailProduct>, id: string): (r: DetailView)
    ensures id in catalogue ==> r.product == Some(catalogue[id]) && r.mainImage == catalogue[id].imageCover
    ensures id !in catalogue ==> r == view
  {
    if id in catalogue then DetailView(Some(catalogue[id]), catalogue[id].imageCover) else view
  }

  /** "Product not found" is shown while the selected product has no id. */
  predicate ShowsNotFound(view: DetailView) {
    view.product.None? || view.product.value.id == []
  }

  /** On a freshly opened page, a known id shows that product and an unknown
      id shows "Product not found". */
  lemma OpenedPage(catalogue: map<string, DetailProduct>, id: string)
    requires KeyedById(catalogue)
    ensures var v := SelectProduct(InitialView, catalogue, id);
            (id in catalogue && id != [] ==> !ShowsNotFound(v) && v.product.value.id == id) &&
            (id !in catalogue ==> ShowsNotFound(v) && v.mainImage == [])
  {
  }

  /** `product.images?.slice(0, 4)`: the first four images, in order; none
      while no product is selected. */
  function Thumbnails(view: DetailView): (r: seq<string>)
    ensures view.product.None? ==> r == []
    ensures view.product.Some? ==> r <= view.product.value.images
    ensures view.product.Some? ==> |r| == if |view.product.value.images| < 4 then |view.product.value.images| else 4
  {
    match view.product
    case None => []
    case Some(p) => if |p.images| < 4 then p.images else p.images[..4]
  }
}

=== FILE: records.dfy ===
/** The rows the storefront reads from its hosted database, as the components
    see them after a select. Only the fields some modelled logic looks at are
    kept; timestamps and free-form display fields are dropped. */
module Records {
  import opened Wrappers

  /** The `categories (id, name)` join embedded in a product row. */
  datatype CategoryRef = CategoryRef(id: string, name: string)

  /** A `product_images` row. */
  datatype ImageRow = ImageRow(productId: string, imageUrl: string, displayOrder: int, altText: string)

  /** A `products` row with its joined category and, as
      `fetchProductWithImages` returns it, its `product_images` rows. The
      admin lists only carry the image rows along; how they are written and
      read back is `ProductImages`. */
  datatype Product = Product(
    id: string,
    title: string,
    description: string,
    price: real,
    categoryId: Option<string>,
    category: Option<CategoryRef>,
    stock: int,
    imageUrl: string,
    images: seq<ImageRow>)

  /** A `categories` row. */
  datatype Category = Category(id: string, name: string, description: string, imageUrl: string, isActive: bool)

  /** An `order_items` row: a snapshot of one purchased product. */
  datatype OrderItem = OrderItem(id: string, productTitle: string, quantity: int, price: real)

  /** An `orders` row. The money columns may be absent (`null`). */
  datatype Order = Order(
    id: string,
    orderNumber: string,
    userId: Option<string>,
    customerName: string,
    customerEmail: string,
    status: string,
    subtotal: Option<real>,
    shippingCost: Option<real>,
    taxAmount: Option<real>,
    totalAmount: Option<real>,
    paymentMethod: string)

  /** A `profiles` row. */
  datatype Profile = Profile(id: string, email: string, fullName: string)
}

=== FILE: seqs.dfy ===
/** Order-preserving list operations shared by the components: JavaScript's
    `Array.prototype.filter` and the `reduce` that sums an amount over a list. */
module Seqs {

  /** `a` can be obtained from `b` by deleting elements, keeping the order. */
  predicate IsSubsequence<T(==)>(a: seq<T>, b: seq<T>)
    decreases |b|
  {
    a == [] ||
    (b != [] &&
     ((a[0] == b[0] && IsSubsequence(a[1..], b[1..])) || IsSubsequence(a, b[1..])))
  }

  lemma {:induction false} SubsequenceRefl<T>(a: seq<T>)
    ensures IsSubsequence(a, a)
    decreases |a|
  {
    if a != [] {
      SubsequenceRefl(a[1..]);
    }
  }

  /** No element occurs twice. */
  predicate Distinct<T(==)>(xs: seq<T>) {
    forall i, j :: 0 <= i < j < |xs| ==> xs[i] != xs[j]
  }

  /** `xs.filter(keep)`: the elements that satisfy `keep`, in their order,
      each as many times as it occurs in `xs`. */
  function Filter<T>(xs: seq<T>, keep: T -> bool): (r: seq<T>)
    ensures forall i :: 0 <= i < |r| ==> r[i] in xs && keep(r[i])
    ensures forall i :: 0 <= i < |xs| && keep(xs[i]) ==> xs[i] in r
    ensures forall i :: 0 <= i < |xs| ==>
              multiset(r)[xs[i]] == if keep(xs[i]) then multiset(xs)[xs[i]] else 0
    ensures |r| <= |xs|
    ensures IsSubsequence(r, xs)
    decreases |xs|
  {
    if xs == [] then []
    else
      var rest := Filter(xs[1..], keep);
      var r := if keep(xs[0]) then [xs[0]] + rest else rest;
      FilterStepCounts(xs, keep, rest, r);
      r
  }

  /** One step of `Filter`'s count clause: filtering `xs` adds its head to
      the filtered tail exactly when the head passes. */
  lemma FilterStepCounts<T>(xs: seq<T>, keep: T -> bool, rest: seq<T>, r: seq<T>)
    requires xs != []
    requires forall i :: 0 <= i < |rest| ==> rest[i] in xs[1..]
    requires forall i :: 0 <= i < |xs[1..]| ==>
               multiset(rest)[xs[1..][i]] == if keep(xs[1..][i]) then multiset(xs[1..])[xs[1..][i]] else 0
    requires r == if keep(xs[0]) then [xs[0]] + rest else rest
    ensures forall i :: 0 <= i < |xs| ==>
              multiset(r)[xs[i]] == if keep(xs[i]) then multiset(xs)[xs[i]] else 0
  {
    var x, tail := xs[0], xs[1..];
    assert xs == [x] + tail;
    assert multiset(xs) == multiset{x} + multiset(tail);
    assert keep(x) ==> multiset(r) == multiset{x} + multiset(rest);
    if x !in tail {
      assert x !in multiset(rest);
    }
    forall i | 0 <= i < |xs|
      ensures multiset(r)[xs[i]] == if keep(xs[i]) then multiset(xs)[xs[i]] else 0
    {
      if xs[i] == x {
        if x in tail {
          var j :| 0 <= j < |tail| && tail[j] == x;
        }
      } else {
        assert xs[i] == tail[i - 1];
      }
    }
  }

  /** A filter that every element passes returns the list itself. */
  lemma {:induction false} FilterKeepsAll<T>(xs: seq<T>, keep: T -> bool)
    requires forall i :: 0 <= i < |xs| ==> keep(xs[i])
    ensures Filter(xs, keep) == xs
    decreases |xs|
  {
    if xs != [] {
      FilterKeepsAll(xs[1..], keep);
    }
  }

  /** Two tests that agree on every element filter alike. */
  lemma {:induction false} FilterSameTest<T>(xs: seq<T>, keep1: T -> bool, keep2: T -> bool)
    requires forall i :: 0 <= i < |xs| ==> keep1(xs[i]) == keep2(xs[i])
    ensures Filter(xs, keep1) == Filter(xs, keep2)
    decreases |xs|
  {
    if xs != [] {
      FilterSameTest(xs[1..], keep1, keep2);
    }
  }

  /** A stricter test keeps an order-preserving part of what a looser one keeps. */
  lemma {:induction false} FilterMonotone<T>(xs: seq<T>, strict: T -> bool, loose: T -> bool)
    requires forall i :: 0 <= i < |xs| && strict(xs[i]) ==> loose(xs[i])
    ensures IsSubsequence(Filter(xs, strict), Filter(xs, loose))
    decreases |xs|
  {
    if xs == [] {
    } else {
      FilterMonotone(xs[1..], strict, loose);
      var s, l := Filter(xs[1..], strict), Filter(xs[1..], loose);
      if strict(xs[0]) {
        assert Filter(xs, strict) == [xs[0]] + s;
        assert Filter(xs, loose) == [xs[0]] + l;
        assert ([xs[0]] + s)[1..] == s;
        assert ([xs[0]] + l)[1..] == l;
      } else if loose(xs[0]) {
        assert Filter(xs, loose) == [xs[0]] + l;
        assert ([xs[0]] + l)[1..] == l;
      }
    }
  }

  /** The elements of a subsequence occur in the whole. */
  lemma {:induction false} SubsequenceMembers<T>(a: seq<T>, b: seq<T>)
    requires IsSubsequence(a, b)
    ensures forall i :: 0 <= i < |a| ==> a[i] in b
    decreases |b|
  {
    if a != [] {
      if a[0] == b[0] && IsSubsequence(a[1..], b[1..]) {
        SubsequenceMembers(a[1..], b[1..]);
        assert forall i :: 1 <= i < |a| ==> a[i] == a[1..][i - 1];
      } else {
        SubsequenceMembers(a, b[1..]);
      }
    }
  }

  /** A subsequence of a list without repeats has none either. */
  lemma {:induction false} SubsequenceKeepsDistinct<T>(a: seq<T>, b: seq<T>)
    requires IsSubsequence(a, b) && Distinct(b)
    ensures Distinct(a)
    decreases |b|
  {
    if a != [] {
      assert Distinct(b[1..]) by {
        assert forall i :: 0 <= i < |b| - 1 ==> b[1..][i] == b[i + 1];
      }
      if a[0] == b[0] && IsSubsequence(a[1..], b[1..]) {
        SubsequenceKeepsDistinct(a[1..], b[1..]);
        SubsequenceMembers(a[1..], b[1..]);
        assert b[0] !in b[1..];
        forall i, j | 0 <= i < j < |a|
          ensures a[i] != a[j]
        {
          if i == 0 {
            assert a[j] == a[1..][j - 1];
            assert a[j] in b[1..];
          } else {
            assert a[i] == a[1..][i - 1] && a[j] == a[1..][j - 1];
          }
        }
      } else {
        SubsequenceKeepsDistinct(a, b[1..]);
      }
    }
  }

  /** The sum of `amount` over the list, element by element from the front. */
  function SumOf<T>(xs: seq<T>, amount: T -> real): real
    decreases |xs|
  {
    if xs == [] then 0.0 else amount(xs[0]) + SumOf(xs[1..], amount)
  }

  lemma {:induction false} SumOfAppend<T>(a: seq<T>, b: seq<T>, amount: T -> real)
    ensures SumOf(a + b, amount) == SumOf(a, amount) + SumOf(b, amount)
    decreases |a|
  {
    if a == [] {
      assert a + b == b;
    } else {
      assert (a + b)[1..] == a[1..] + b;
      SumOfAppend(a[1..], b, amount);
    }
  }

  /** Every amount non-negative makes the sum non-negative, and zero only when
      every amount is zero. */
  lemma {:induction false} SumOfNonNegative<T>(xs: seq<T>, amount: T -> real)
    requires forall i :: 0 <= i < |xs| ==> amount(xs[i]) >= 0.0
    ensures SumOf(xs, amount) >= 0.0
    ensures SumOf(xs, amount) == 0.0 <==> forall i :: 0 <= i < |xs| ==> amount(xs[i]) == 0.0
    decreases |xs|
  {
    if xs != [] {
      SumOfNonNegative(xs[1..], amount);
      assert forall i :: 1 <= i < |xs| ==> xs[1..][i - 1] == xs[i];
    }
  }

  /** Lists whose elements carry the same amounts, place by place, have the
      same sum. */
  lemma {:induction false} SumOfPointwise<T>(a: seq<T>, b: seq<T>, amount: T -> real)
    requires |a| == |b|
    requires forall i :: 0 <= i < |a| ==> amount(a[i]) == amount(b[i])
    ensures SumOf(a, amount) == SumOf(b, amount)
    decreases |a|
  {
    if a != [] {
      assert forall i :: 0 <= i < |a| - 1 ==> a[1..][i] == a[i + 1] && b[1..][i] == b[i + 1];
      SumOfPointwise(a[1..], b[1..], amount);
    }
  }

  /** `xs.reduce((sum, x) => sum + amount(x), 0)`: a left-to-right running
      total, which ends at the same value as the recursive sum. */
  method Reduce<T>(xs: seq<T>, amount: T -> real) returns (total: real)
    ensures total == SumOf(xs, amount)
  {
    total := 0.0;
    var i := 0;
    while i < |xs|
      invariant 0 <= i <= |xs|
      invariant total == SumOf(xs[..i], amount)
    {
      SumOfAppend(xs[..i], [xs[i]], amount);
      assert xs[..i + 1] == xs[..i] + [xs[i]];
      total := total + amount(xs[i]);
      i := i + 1;
    }
    assert xs[..i] == xs;
  }
}

=== FILE: signed_in_lists.dfy ===
/** The product-card handlers of the home page, the products page and the
    product-details page, which repeat them line for line: adding to the cart
    and toggling the wishlist keep client-side lists of product ids, and both
    require a stored sign-in token. The wishlist page repeats the add-to-cart
    handler and removes with the same filter, without a token check. */
module SignedInLists {
  import opened Wrappers
  import opened Seqs

  /** `localStorage.getItem('userToken')` is truthy: present and non-empty. */
  predicate SignedIn(token: Option<string>) {
    token.Some? && token.value != []
  }

  /** Where a handler sends the shopper when no token is stored. */
  const LoginPath := "/login"

  /** The list after a handler, and the navigation it asked for. */
  datatype Handled = Handled(ids: seq<string>, redirect: Option<string>)

  /** `handleAddToCart`. */
  function AddToCart(token: Option<string>, added: seq<string>, id: string): (r: Handled)
    ensures !SignedIn(token) ==> r.ids == added && r.redirect == Some(LoginPath)
    ensures SignedIn(token) ==> r.ids == added + [id] && r.redirect.None?
  {
    if !SignedIn(token) then Handled(added, Some(LoginPath)) else Handled(added + [id], None)
  }

  /** The add button of a card is disabled once its id has been added. */
  predicate AddDisabled(added: seq<string>, id: string) {
    id in added
  }

  /** A signed-in add disables the card's button. */
  lemma AddThenDisabled(token: Option<string>, added: seq<string>, id: string)
    requires SignedIn(token)
    ensures AddDisabled(AddToCart(token, added, id).ids, id)
    ensures forall other :: AddDisabled(added, other) ==> AddDisabled(AddToCart(token, added, id).ids, other)
  {
  }

  /** `ids.filter(x => x !== id)`. */
  function RemoveId(ids: seq<string>, id: string): (r: seq<string>)
    ensures id !in r
    ensures forall i :: 0 <= i < |ids| && ids[i] != id ==> ids[i] in r
    ensures forall x :: x in r ==> x in ids
    ensures forall i :: 0 <= i < |ids| && ids[i] != id ==> multiset(r)[ids[i]] == multiset(ids)[ids[i]]
    ensures IsSubsequence(r, ids)
  {
    Filter(ids, (x: string) => x != id)
  }

  /** Removing an id that is not there changes nothing, so removing is
      idempotent. */
  lemma RemoveAbsent(ids: seq<string>, id: string)
    ensures id !in ids ==> RemoveId(ids, id) == ids
    ensures RemoveId(RemoveId(ids, id), id) == RemoveId(ids, id)
  {
    FilterKeepsAll(RemoveId(ids, id), (x: string) => x != id);
    if id !in ids {
      FilterKeepsAll(ids, (x: string) => x != id);
    }
  }

  /** The wishlist toggle: a present id is removed everywhere, an absent one
      appended. */
  function ToggleWish(ids: seq<string>, id: string): (r: seq<string>)
    ensures id in ids ==> r == RemoveId(ids, id)
    ensures id !in ids ==> r == ids + [id]
    ensures id in r <==> id !in ids
  {
    if id in ids then RemoveId(ids, id) else ids + [id]
  }

  /** Toggling an absent id twice gives the list back. */
  lemma ToggleTwiceRestores(ids: seq<string>, id: string)
    requires id !in ids
    ensures ToggleWish(ToggleWish(ids, id), id) == ids
  {
    var once := ids + [id];
    assert once == ToggleWish(ids, id);
    FilterAppendDropsLast(ids, id);
  }

  lemma {:induction false} FilterAppendDropsLast(ids: seq<string>, id: string)
    requires id !in ids
    ensures RemoveId(ids + [id], id) == ids
    decreases |ids|
  {
    if ids == [] {
      assert [] + [id] == [id];
      assert [id][1..] == [];
    } else {
      assert (ids + [id])[1..] == ids[1..] + [id];
      FilterAppendDropsLast(ids[1..], id);
    }
  }

  /** The toggle never introduces a duplicate. */
  lemma ToggleKeepsNoDuplicates(ids: seq<string>, id: string)
    requires Distinct(ids)
    ensures Distinct(ToggleWish(ids, id))
  {
    if id in ids {
      SubsequenceKeepsDistinct(RemoveId(ids, id), ids);
    }
  }

  /** `handleWishlistAction`. */
  function WishlistAction(token: Option<string>, wish: seq<string>, id: string): (r: Handled)
    ensures !SignedIn(token) ==> r.ids == wish && r.redirect == Some(LoginPath)
    ensures SignedIn(token) ==> r.ids == ToggleWish(wish, id) && r.redirect.None?
  {
    if !SignedIn(token) then Handled(wish, Some(LoginPath)) else Handled(ToggleWish(wish, id), None)
  }
}

=== FILE: wishlist.dfy ===
/** The wishlist page: the wished ids start as the ids of the page's static
    list, a card's remove button deletes its id (no sign-in needed), and the
    cards shown should follow the wished ids. */
module WishlistView {
  import opened Seqs
  import opened SignedInLists

  datatype WishCard = WishCard(id: string, title: string, price: real)

  const StaticWishlist: seq<WishCard> := [
    WishCard("1", "Running Shoes Pro", 129.99),
    WishCard("3", "Yoga Leggings Premium", 59.99),
    WishCard("5", "Football Cleats Pro", 149.99)]

  /** The ids set on mount: one per card, in card order. */
  function InitialWishIds(cards: seq<WishCard>): (ids: seq<string>)
    ensures |ids| == |cards|
    ensures forall i :: 0 <= i < |cards| ==> ids[i] == cards[i].id
  {
    seq(|cards|, i requires 0 <= i < |cards| => cards[i].id)
  }

  lemma InitialIdsOfStaticList()
    ensures InitialWishIds(StaticWishlist) == ["1", "3", "5"]
  {
  }

  /** `handleRemoveFromWishlist`: every occurrence of the id goes, the other
      ids keep their order; no token is consulted. */
  function RemoveFromWishlist(wish: seq<string>, id: string): (r: seq<string>)
    ensures id !in r
    ensures forall i :: 0 <= i < |wish| && wish[i] != id ==> wish[i] in r
    ensures forall i :: 0 <= i < |wish| && wish[i] != id ==> multiset(r)[wish[i]] == multiset(wish)[wish[i]]
    ensures IsSubsequence(r, wish)
  {
    RemoveId(wish, id)
  }

  /** The cards whose id is still wished, in list order. */
  function CardsShown(cards: seq<WishCard>, wish: seq<string>): (r: seq<WishCard>)
    ensures forall i :: 0 <= i < |r| ==> r[i].id in wish
    ensures forall i :: 0 <= i < |cards| && cards[i].id in wish ==> cards[i] in r
    ensures forall i :: 0 <= i < |cards| ==>
              multiset(r)[cards[i]] == if cards[i].id in wish then multiset(cards)[cards[i]] else 0
    ensures IsSubsequence(r, cards)
  {
    Filter(cards, (c: WishCard) => c.id in wish)
  }

  /** As written, the page renders `StaticWishlist` itself and tests its
      length for the empty state. After removing "1" that is not the list of
      wished cards, and with nothing wished the page still is not empty. */
  lemma RemovedCardStillShown()
    ensures var wish := RemoveFromWishlist(InitialWishIds(StaticWishlist), "1");
            "1" !in wish && StaticWishlist != CardsShown(StaticWishlist, wish)
    ensures StaticWishlist != CardsShown(StaticWishlist, [])
  {
    var wish := RemoveFromWishlist(InitialWishIds(StaticWishlist), "1");
    var shown := CardsShown(StaticWishlist, wish);
    assert forall i :: 0 <= i < |shown| ==> shown[i].id != "1";
  }

  /** With the cards following the wished ids: every card shows on mount, a
      removed id's card disappears, and removing every id empties the page. */
  lemma ShownCardsFollowRemoval(cards: seq<WishCard>, wish: seq<string>, id: string)
    ensures CardsShown(cards, InitialWishIds(cards)) == cards
    ensures forall i :: 0 <= i < |CardsShown(cards, RemoveFromWishlist(wish, id))| ==>
              CardsShown(cards, RemoveFromWishlist(wish, id))[i].id != id
    ensures CardsShown(cards, []) == []
  {
    var ids := InitialWishIds(cards);
    assert forall i :: 0 <= i < |cards| ==> cards[i].id in ids;
    FilterKeepsAll(cards, (c: WishCard) => c.id in ids);
  }
}

=== FILE: wrappers.dfy ===
/** The optional values the storefront reads from JavaScript objects: a field
    that is `null`/`undefined`, a `localStorage` key that was never set, a
    `prompt` that was cancelled. */
module Wrappers {

  datatype Option<+T> = None | Some(value: T) {

    /** The value, or `default` when absent (JavaScript's `x || default` for a
        field whose present values are all truthy). */
    function GetOr(default: T): T {
      match this
      case Some(v) => v
      case None => default
    }
  }
}
